=== FILE: README.md ===
# SocialAI core in Dafny

A functional model of the SocialAI marketing planner. The browser app keeps a
store of campaigns and, per campaign, a list of committed posts. A planner
drafts a content calendar with a generative service, attaches generated or
edited images to posts, commits drafts to the store and exports the calendar
as CSV. A consultant chat talks to the same service. Every React handler is a
pure transition on immutable state. Everything the program asks of the
outside world enters as a parameter:

- fresh ids (`crypto.randomUUID`) are `newId`, `userId` and `botId`;
- the clock (`Date.now`) is `now`;
- the remote replies are datatypes (`PlanReply`, `Response`) or `Result`/`Option` values;
- what local storage held is an already decoded `Option`.

Modules follow the source files:

| module | models |
|---|---|
| `Types` | types.ts, plus `Option`/`Result` and JavaScript truthiness of an optional string |
| `Strings` | `split`/`join` on one character, `replace(/"/g, '""')`, `startsWith`, `!s.trim()` |
| `AppContext` | context/AppContext.tsx: the store and its mutators |
| `GeminiService` | services/geminiService.ts: data-URI parsing and building, request parts, image extraction, result and reply fallbacks, the consultant's system instruction |
| `PostPlanner` | components/PostPlanner.tsx: the planner handlers |
| `CsvExport` | the CSV text of `handleExportCSV`, and a CSV record reader that states what a row reads back as |
| `CampaignForm` | components/CampaignForm.tsx: loading, submit, logo |
| `ConsultantChat` | components/ConsultantChat.tsx: the send cycle and its invariant |
| `App` | App.tsx: the view switch and dashboard handlers |
| `Layout` | components/Layout.tsx: sidebar navigation and panels |

## Model

| member | source | states |
|---|---|---|
| AppContext.InitialState | context/AppContext.tsx:20-44 | With nothing saved, the list is exactly `[SeedCampaign(now)]`: id "1", the demo fields, no logo and the start-up time. Saved lists and saved post maps are used as they are. Nothing is selected and the view is the dashboard. |
| AppContext.SeedCampaign | context/AppContext.tsx:20-30 | The first-run campaign has id "1", no logo and the start-up time as its creation time. |
| AppContext.InitialUnique | context/AppContext.tsx:32-36 | The seed list has unique ids. A saved list has them exactly when it had them before: nothing is checked on load. |
| AppContext.AddCampaign | context/AppContext.tsx:54-56 | The campaign is appended after the old list, which is unchanged. The posts, selection and view are kept. |
| AppContext.AddCampaignUnique | context/AppContext.tsx:54-56 | Adding keeps ids unique exactly when the new id is not already in the list. |
| AppContext.ReplaceById | context/AppContext.tsx:58-60 | Same length. Each position holds the update if its id matches, else the old campaign. |
| AppContext.UpdateCampaign | context/AppContext.tsx:58-60 | Only the campaign list changes. The selected copy is not refreshed. |
| AppContext.UpdateAbsentIsNoOp | context/AppContext.tsx:58-60 | An update whose id is absent leaves the list as it was. |
| AppContext.UpdateKeepsIds | context/AppContext.tsx:58-60 | An update keeps the id sequence, so it keeps ids unique. |
| AppContext.UpdatePresent | context/AppContext.tsx:58-60 | With unique ids, an update of a present id overwrites exactly that one position. |
| AppContext.RemoveById | context/AppContext.tsx:63 | A campaign survives the filter iff it was in the list and has a different id. The list never grows. |
| AppContext.RemoveByIdAppend | context/AppContext.tsx:63 | The filter distributes over concatenation, so survivors keep their order. |
| AppContext.RemoveAbsentIsNoOp | context/AppContext.tsx:63 | Deleting an absent id changes nothing. |
| AppContext.RemovePresent | context/AppContext.tsx:63 | With unique ids, deleting a present id removes exactly that position. |
| AppContext.RemoveKeepsUnique | context/AppContext.tsx:63 | Deleting keeps ids unique, and the id is gone afterwards. |
| AppContext.DeleteCampaign | context/AppContext.tsx:62-68 | If the selected campaign is deleted, the selection is cleared and the view becomes the dashboard. Otherwise both are kept. Posts are never touched: there is no cascade. |
| AppContext.DeleteClearsDangling | context/AppContext.tsx:62-68 | After a delete, the selection never carries the deleted id. |
| AppContext.SavePosts | context/AppContext.tsx:70-75 | The campaign's list becomes its old list (or empty) followed by the new posts. Every other key is unchanged. |
| AppContext.SavePostsTwice | context/AppContext.tsx:70-75 | Saving a and then b equals saving a followed by b. |
| AppContext.SetSelectedCampaign | context/AppContext.tsx:43 | Sets the selection only. |
| AppContext.SetView | context/AppContext.tsx:44 | Sets the view only. |
| Types.PlatformName | types.ts:12 | The platform's string value, as the exported Platform cell writes it. It is never empty. |
| Types.PlatformNameInjective | types.ts:12 | Two platforms have the same string value iff they are the same platform, so the cell identifies the platform. |
| Types.StatusName | types.ts:24 | The status's string value, as the exported Status cell writes it. It is never empty. |
| Types.StatusNameInjective | types.ts:24 | Two statuses have the same string value iff they are the same status. |
| Strings.Split | services/geminiService.ts:140 | A split yields at least one piece, and no piece holds the separator. |
| Strings.JoinSplit | components/PostPlanner.tsx:121-122 | Joining the pieces of a split restores the string. |
| Strings.SplitJoin | components/PostPlanner.tsx:121-122 | Splitting a join of separator-free pieces restores the pieces. |
| Strings.SplitNoSep | services/geminiService.ts:140 | A string without the separator splits into itself. |
| Strings.SplitPrefix | services/geminiService.ts:140 | A separator-free head and the separator become the first piece. |
| Strings.SplitFirst | services/geminiService.ts:141 | The first piece is the text before the first separator. |
| Strings.SplitSecond | services/geminiService.ts:140 | The second piece is the text between the first two separators. |
| Strings.Join | components/PostPlanner.tsx:121-122 | `Array.prototype.join`: the pieces in order with the separator between them. Split undoes it for separator-free pieces (SplitJoin) and it undoes Split (JoinSplit). |
| Strings.TrimStart | components/ConsultantChat.tsx:33 | Leading whitespace is dropped: the result is a suffix, what was dropped is blank, and the result does not start with whitespace. |
| Strings.TrimEnd | components/ConsultantChat.tsx:33 | Trailing whitespace is dropped: the result is a prefix, what was dropped is blank, and the result does not end with whitespace. |
| Strings.BlankIffTrimEmpty | components/ConsultantChat.tsx:33 | A string is blank iff its trim is empty, so the send guard `!input.trim()` is exactly IsBlank. |
| Strings.DoubleQuotes | components/PostPlanner.tsx:115-117 | Text without quotes is unchanged. Escaping never shortens. |
| Strings.JoinSplitPiece | components/PostPlanner.tsx:121-122 | A piece holding the separator joins like the two pieces around it. |
| Strings.JoinExcludes | components/PostPlanner.tsx:121-122 | A character that is in no piece and is not the separator is not in the join. |
| GeminiService.FormatDataUri | services/geminiService.ts:161-165 | The URI starts with "data:", ends with the data, and has 13 extra characters. |
| GeminiService.PayloadWithoutComma | services/geminiService.ts:140 | Without a comma, the whole input is the payload. |
| GeminiService.PayloadAfterFirstComma | services/geminiService.ts:140 | The payload is the text between the first and second comma. If that text is empty, the payload is the whole input. |
| GeminiService.MimeWithoutColon | services/geminiService.ts:141 | With no ':' before the first ';', the media type defaults to image/png. |
| GeminiService.MimeAfterFirstColon | services/geminiService.ts:141 | The media type is the text between the first and second ':' before the first ';'. Empty text falls back to image/png. |
| GeminiService.DataUriRoundTrip | services/geminiService.ts:140-141 | For a non-empty type free of ';', ':' and ',' and non-empty comma-free data, parsing a formatted URI gives back both parts. |
| GeminiService.DataUriFallbacks | services/geminiService.ts:140-141 | An empty type parses back as image/png. An empty payload makes the whole URI the payload. |
| GeminiService.ImageRequestParts | services/geminiService.ts:135-151 | Without a truthy reference, the request is the prompt alone. With one, the prompt gets the fixed suffix, followed by one inline part holding the reference's parsed type and payload. |
| GeminiService.EditRequestParts | services/geminiService.ts:173-190 | The image comes first as an inline part with its parsed type and payload, then the instruction text. |
| GeminiService.ReferenceImageForwarded | services/geminiService.ts:138-148 | A reference made by the image call is forwarded with exactly its type and data. |
| GeminiService.ExtractImage | services/geminiService.ts:160-166 | Fails with the given error iff no part of the first candidate has inline data. Otherwise it returns the data URI of the first such part. |
| GeminiService.GenerateImage | services/geminiService.ts:131-167 | Sends the image request for the prompt and reference. Fails with "No image generated" iff the reply's first candidate has no inline image. On success the value is the data URI of the first part that carries inline data. |
| GeminiService.EditImage | services/geminiService.ts:169-198 | Sends the image first and then the instruction. Fails with "No edited image returned" iff the reply's first candidate has no inline image. On success the value is the data URI of the first part that carries inline data. |
| GeminiService.PayloadOf | services/geminiService.ts:140 | The payload is either the whole input or a non-empty piece without a comma. |
| GeminiService.MimeOf | services/geminiService.ts:141 | The media type is either image/png or a non-empty piece without a colon. |
| GeminiService.PlanResult | services/geminiService.ts:44-79 | Empty text yields an empty plan. Parsed items are returned as they are. A failed call or bad JSON raises the fixed failure message. |
| GeminiService.SystemInstruction | services/geminiService.ts:90-108 | The fixed instruction comes first. The campaign block (`CampaignContext`: company, niche, audience and voice) follows iff a campaign is given. |
| GeminiService.HistoryContents | services/geminiService.ts:110-113 | Each turn becomes one content entry with its role and one text part, in order. |
| GeminiService.ConsultReply | services/geminiService.ts:115-129 | A failed call gives the apology and a missing or empty text gives the fallback; otherwise the text. Never empty. |
| PostPlanner.InitialPlannerShowsStored | components/PostPlanner.tsx:28-39 | A freshly mounted planner has no preview, no edit or generation in flight and an empty edit prompt, so it shows the selected campaign's stored posts. |
| PostPlanner.DisplayPosts | components/PostPlanner.tsx:38-39 | The preview when it is non-empty, else the selected campaign's stored posts, else nothing. |
| PostPlanner.Drafts | components/PostPlanner.tsx:46-52 | One draft per plan item, in order. Each has the i-th fresh id, status draft, the chosen platform, no visual, and the item's fields, with the visual type defaulting to image. |
| PostPlanner.DraftIdsDistinct | components/PostPlanner.tsx:46-52 | Distinct fresh ids give drafts with distinct ids. |
| PostPlanner.GenerateSchedule | components/PostPlanner.tsx:41-59 | Does nothing without a selection. On success the preview becomes the drafts; on failure it is kept. The store is never written. |
| PostPlanner.UpdatePrompt | components/PostPlanner.tsx:61-63 | Posts with the id get the new prompt. Every other field and every other post is kept. |
| PostPlanner.HandleUpdatePrompt | components/PostPlanner.tsx:61-63 | Only the preview changes. |
| PostPlanner.UpdatePromptAbsent | components/PostPlanner.tsx:61-63 | An absent id changes nothing. |
| PostPlanner.SetVisualUrl | components/PostPlanner.tsx:71 | Posts with the id get the URL. Every other field and every other post is kept. |
| PostPlanner.VisualRequest | components/PostPlanner.tsx:70 | The request carries a reference part iff the selected campaign has a truthy logo. Without one it is the post's prompt alone. With one, the prompt gets the reference suffix and the second part is the logo's parsed media type and payload. |
| PostPlanner.GenerateVisual | components/PostPlanner.tsx:65-81 | As written: video posts change nothing. A failure, or a success with no preview and no selection, clears only the loading id and leaves the store alone. A success with a preview updates the preview in place and changes nothing else. A success on committed posts appends the updated stored list to the store. |
| PostPlanner.VisualWriteBackDoubles | components/PostPlanner.tsx:71-73 | The stored list becomes the prior list followed by its updated copy, twice as long. |
| PostPlanner.VisualWriteBackDuplicates | components/PostPlanner.tsx:71-73 | A single committed post is stored twice after it gets a visual. |
| PostPlanner.GenerateVisualReplacing | components/PostPlanner.tsx:65-81 | Corrected write-back: a success on committed posts replaces the campaign's stored list by its updated copy and changes nothing else in the store. Every other case leaves the store as it was. The planner behaves as written. |
| PostPlanner.ReplacingKeepsCommittedList | components/PostPlanner.tsx:71-73 | The corrected write-back keeps the stored list's length and ids. |
| PostPlanner.StartEditVisual | components/PostPlanner.tsx:341-343 | Opens the edit bar for one post with an empty prompt. No other planner field changes. |
| PostPlanner.EditVisual | components/PostPlanner.tsx:83-97 | Does nothing without a truthy visual or a prompt. A failure clears only the loading id. On success the updated displayed list becomes the preview, the prompt is cleared, the edit bar closes and nothing else in the planner changes. The store is never written. |
| PostPlanner.EditVisualDisplay | components/PostPlanner.tsx:83-97 | After a successful edit the planner displays the same posts in the same order, and only the edited post's visual differs. |
| PostPlanner.EditCommittedThenSave | components/PostPlanner.tsx:83-105 | Editing a committed post moves the whole committed list into the preview, so a later save appends an edited second copy of that list. |
| PostPlanner.EditRequest | components/PostPlanner.tsx:87 | The current visual's parsed type and payload come first, then the edit prompt. |
| PostPlanner.Save | components/PostPlanner.tsx:99-105 | With a selection and a non-empty preview, the preview is appended to the store and cleared. Otherwise nothing happens. |
| PostPlanner.SaveThenDisplay | components/PostPlanner.tsx:99-105 | After a save, the planner displays the prior posts followed by the saved preview. |
| PostPlanner.ExportCsv | components/PostPlanner.tsx:107-122 | Nothing is exported iff no post is displayed. The text starts with the CSV data-URI prefix. |
| PostPlanner.ExportLines | components/PostPlanner.tsx:107-122 | Without line breaks in the cells, the export's lines are the header and then one row per displayed post. |
| PostPlanner.ExportCsvQuoted | components/PostPlanner.tsx:107-122 | Corrected export handler: exports exactly when the as-written handler does, under the same data-URI prefix. |
| PostPlanner.ExportQuotedReadsBack | components/PostPlanner.tsx:107-122 | Corrected export: without line breaks in the values, the file is the header line and then one line per displayed post, and each line reads back as that post's seven values. |
| PostPlanner.DisplayTag | components/PostPlanner.tsx:396 | A shown tag starts with '#'. It equals the tag iff the tag already did. |
| PostPlanner.DisplayTagIdempotent | components/PostPlanner.tsx:396 | Showing a shown tag changes nothing. |
| CsvExport.QuoteCell | components/PostPlanner.tsx:115-117 | A quoted cell begins and ends with a double quote. |
| CsvExport.WrittenCells | components/PostPlanner.tsx:111-119 | The export writes seven cells per post. |
| CsvExport.WrittenCellsOfFields | components/PostPlanner.tsx:111-119 | Day, platform, status and URL are written as the bare value. Caption and prompt are quoted with their quotes doubled. The hashtags are quoted without doubling. |
| CsvExport.CsvRow | components/PostPlanner.tsx:111-122 | One row as written: the written cells joined by commas. What it reads back as is stated by CsvRowReadsBack and the two splitting lemmas. |
| CsvExport.CsvRows | components/PostPlanner.tsx:111-122 | One row per post, in order. |
| CsvExport.CsvContent | components/PostPlanner.tsx:108-122 | No content iff there are no posts. Otherwise the prefix is followed by the header line. |
| CsvExport.CsvLines | components/PostPlanner.tsx:121-122 | Without line breaks in the cells, the body splits into the header and the rows, in order. |
| CsvExport.HeaderOneLine | components/PostPlanner.tsx:109-110 | The header has no line break. |
| CsvExport.RowOneLine | components/PostPlanner.tsx:111-119 | A row of line-free cells has no line break. |
| CsvExport.ReadRenderedRow | components/PostPlanner.tsx:111-122 | A record of cells that read back reads back as their texts. |
| CsvExport.CsvRowReadsBack | components/PostPlanner.tsx:111-122 | When the day and URL hold no comma or leading quote and the hashtags hold no quote, a row reads back as the post's seven values. |
| CsvExport.VisualUrlCommaSplitsRow | components/PostPlanner.tsx:118 | A visual URL with a comma is written bare, and the row reads back as eight values. |
| CsvExport.GeneratedVisualSplitsRow | components/PostPlanner.tsx:118 | Every generated data URI has such a comma, so a post with a generated visual exports eight values. |
| CsvExport.DayCommaSplitsRow | components/PostPlanner.tsx:112 | A day label with a comma is written bare, so it is cut in two. The row reads back as eight values: the two halves, then the other six values. |
| CsvExport.HashtagQuoteSplitsRow | components/PostPlanner.tsx:116 | A hashtag with a quote and a comma closes the hashtag cell early, and the row reads back as eight values. |
| CsvExport.CsvRowQuotedReadsBack | components/PostPlanner.tsx:111-122 | Corrected row: with every cell quoted and escaped, every post reads back as exactly its seven values. |
| CsvExport.CsvContentQuoted | components/PostPlanner.tsx:108-122 | Corrected content: no content iff there are no posts. Otherwise the text starts with the data-URI prefix. |
| CsvExport.CsvQuotedReadsBack | components/PostPlanner.tsx:108-122 | Corrected content: the body splits into the header and one line per post, and line i+1 reads back as the values of post i. |
| Strings.DoubleQuotesExcludes | components/PostPlanner.tsx:115-117 | Escaping quotes adds no character other than the quote, so it adds no line break. |
| CampaignForm.FormOf | components/CampaignForm.tsx:25-32 | A campaign's fields load into the form. A missing logo loads as "". |
| CampaignForm.ApplyForm | components/CampaignForm.tsx:51-54 | The spread keeps the id and creation time, overrides the other fields, and always sets the logo. Loading the result gives the form back. |
| CampaignForm.InitialForm | components/CampaignForm.tsx:14-34 | Outside editing, or with no selection, all six form fields are empty strings. When editing a selected campaign, the form holds that campaign's fields. |
| CampaignForm.LoadForEdit | components/CampaignForm.tsx:23-34 | When editing with a selection, the form is replaced by the selected campaign's fields. Otherwise it is left alone. |
| CampaignForm.ApplyThenLoad | components/CampaignForm.tsx:23-54 | Submitting a form and reloading gives the form back. |
| CampaignForm.LoadThenApply | components/CampaignForm.tsx:23-54 | Loading and submitting unchanged writes back the same campaign, except a missing logo becomes "". It is the same campaign iff it had a logo. |
| CampaignForm.CreatedCampaign | components/CampaignForm.tsx:56-60 | A new campaign has the fresh id, the current time and the form's fields. |
| CampaignForm.Submit | components/CampaignForm.tsx:47-63 | An edit with a selection overwrites by id; otherwise a campaign is appended. The view goes to the dashboard and the selection is kept. |
| CampaignForm.SubmitCreateUnique | components/CampaignForm.tsx:55-60 | A create keeps ids unique iff the fresh id is unused. |
| CampaignForm.SubmitEditInPlace | components/CampaignForm.tsx:50-54 | With unique ids, an edit overwrites exactly the selected position. That position keeps its id and holds the form, and ids stay unique. |
| CampaignForm.SubmitEditOfRemoved | components/CampaignForm.tsx:50-54 | Editing a campaign no longer in the list changes no campaign. |
| CampaignForm.RemoveLogo | components/CampaignForm.tsx:130-133 | Clears the logo and keeps every other field. |
| CampaignForm.UploadLogo | components/CampaignForm.tsx:36-45 | The logo becomes the read data URL, and every other field is kept. |
| ConsultantChat.InitialChat | components/ConsultantChat.tsx:14-23 | The chat starts with just the welcome message, an empty input and no loading. |
| ConsultantChat.SetInput | components/ConsultantChat.tsx:136 | Typing changes only the input. |
| ConsultantChat.Turns | components/ConsultantChat.tsx:48 | The history keeps each message's role and text, in order. |
| ConsultantChat.SendBegin | components/ConsultantChat.tsx:31-48 | Ignored iff the input is blank or a reply is pending. Otherwise the untrimmed input is appended as a user message, the input is cleared and loading starts. The history is the old messages then the user's turn. |
| ConsultantChat.SendComplete | components/ConsultantChat.tsx:49-62 | An answer is appended as a model message, and an exception appends nothing. Loading ends and the input is kept. |
| ConsultantChat.InitialValid | components/ConsultantChat.tsx:16-23 | The initial panel satisfies the chat invariant. |
| ConsultantChat.SetInputValid | components/ConsultantChat.tsx:136 | Typing preserves the invariant. |
| ConsultantChat.SendBeginValid | components/ConsultantChat.tsx:31-44 | Sending preserves the invariant: the welcome message stays first, user texts are never blank, no two model messages are adjacent, and the last message is the user's while loading. |
| ConsultantChat.SendCompleteValid | components/ConsultantChat.tsx:49-62 | A completion while loading preserves the invariant. |
| ConsultantChat.ExchangeAppendsTwo | components/ConsultantChat.tsx:31-62 | A full exchange with visible input appends the user's text and then a non-empty model reply, keeping the invariant. |
| App.HandleEditCampaign | App.tsx:13-16 | Selects the campaign and shows the edit view. The store is unchanged. |
| App.HandleManageCampaign | App.tsx:18-21 | Selects the campaign and shows the planner. The store is unchanged. |
| App.HandleCreateNew | App.tsx:23-26 | Clears the selection and shows the new-campaign view. |
| App.RenderView | App.tsx:28-46 | Both campaign views render the form, in edit mode exactly for the edit view. The dashboard and planner render their own screens. |
| App.RenderViewInjective | App.tsx:28-46 | Different views render different screens. |
| App.EditShowsCampaign | App.tsx:13-16 | After choosing edit, the form is in edit mode and holds exactly the chosen campaign's fields. |
| App.CreateNewAdds | App.tsx:23-26 | After choosing create, submitting always appends a new campaign and returns to the dashboard. |
| Layout.TargetView | components/Layout.tsx:21-23 | Each link names its own view. |
| Layout.HandleNav | components/Layout.tsx:21-25 | Going to the dashboard clears the selection; going to the new form keeps it. The view changes and the sidebar closes. The chat panel is kept. |
| Layout.NavShowsTarget | components/Layout.tsx:21-25 | Both links lead to the screen they name, with the form in create mode. |
| Layout.NavIdempotent | components/Layout.tsx:21-25 | Navigating twice to the same place equals navigating once. |
| Layout.ToggleSidebar | components/Layout.tsx:19 | Flips the sidebar and keeps the chat panel. |
| Layout.CloseSidebar | components/Layout.tsx:33 | Closes the sidebar and keeps the chat panel. |
| Layout.SetChatOpen | components/Layout.tsx:85 | Sets the chat panel and keeps the sidebar. |
| Layout.ToggleTwice | components/Layout.tsx:19 | Toggling twice restores the panels. |

## Left out

- Calls to the generative service: the model name, the network call and the exact prompt wording of the plan request are not modelled. That wording includes the per-platform rule table. The replies enter as parameters.
- Local storage and JSON: the write-back effects are not modelled. Reading storage is modelled as an already decoded `Option`; the JSON parse itself is not modelled.
- Corrupt storage: `JSON.parse` of a saved blob is unguarded, so a corrupt blob throws during start-up. The model takes the already decoded value and has no fallback path.
- `encodeURI`, the DOM download link and the file name of the export are not modelled. The model stops at the CSV text.
- `alert`, `console.error`, scrolling and all styling are left out.
- Concurrency between overlapping async handlers is not modelled: each handler runs to completion on the state it started from.
- The form's per-field text setters are left out; they are plain field updates.
- The dashboard component is not part of this model.
- The `default` arm of the view switch is unreachable, since the view has exactly four cases. It is not modelled.
- Spread keys beyond the declared schema are not modelled. In particular, a generated item that carried an `id` or `status` would override the draft's values.
- `FileReader` is not modelled; its data URL is the `UploadLogo` parameter.
- PostPlanner.ExportCsv: the handler is modelled with the rows as written. Their read-back (`CsvExport.CsvRowReadsBack`) is proved only when the day and visual URL hold no comma and start with no quote, and the hashtags hold no quote. The corrected rows are used by `PostPlanner.ExportCsvQuoted`, whose rows read back for every post.
- CsvExport.CsvQuotedReadsBack: the whole-file read-back is proved only when no value holds a line break. The reference reader splits the body into lines before it honours quotes, so a quoted cell with a newline is not read as one record. Each corrected row still reads back for every post (`CsvExport.CsvRowQuotedReadsBack`).
- PostPlanner.ExportQuotedReadsBack: the same restriction to values without line breaks, for the same reason.

## Findings

| source | as written | input that shows it | evidently intended | confidence | as-written member | corrected member |
|---|---|---|---|---|---|---|
| components/PostPlanner.tsx:71-73 | With no preview, a generated visual passes the whole updated stored list to `savePosts`, which appends it. | A campaign with one committed image post `p` gets a visual `u`. The stored list becomes `[p, p with u]`. | Replace the stored list by its updated copy. | not executed | PostPlanner.VisualWriteBackDoubles | PostPlanner.GenerateVisualReplacing |
| components/PostPlanner.tsx:118 | The visual URL cell is written bare. | Any generated visual `data:image/png;base64,AAAA` contains a comma, so the row reads back as eight values. | Quote and escape the URL like the caption. | not executed | CsvExport.VisualUrlCommaSplitsRow | PostPlanner.ExportQuotedReadsBack |
| components/PostPlanner.tsx:116 | The hashtags cell is quoted but its quotes are not doubled. | The hashtags `["a\",b"]` close the cell after `a`, so the row reads back as eight values. | Double the quotes as for the caption. | not executed | CsvExport.HashtagQuoteSplitsRow | PostPlanner.ExportQuotedReadsBack |
| components/PostPlanner.tsx:112 | The day cell is written bare. | A day label `Monday, Jan 1` contains a comma, so the row reads back as eight values. | Quote and escape the day like the caption. | not executed | CsvExport.DayCommaSplitsRow | CsvExport.CsvRowQuotedReadsBack |

=== FILE: app.dfy ===
/**
 * The top-level screen switch and the dashboard's three navigation
 * handlers: edit a campaign, manage its posts, or start a new one.
 */
module App {
  import opened Types
  import opened AppContext
  import opened CampaignForm

  /** The component a view renders; the form knows whether it edits. */
  datatype Screen = DashboardScreen | FormScreen(isEditing: bool) | PlannerScreen

  /** `handleEditCampaign`: select the campaign and open it in the form. */
  function HandleEditCampaign(s: AppState, c: Campaign): (s': AppState)
    ensures s'.selectedCampaign == Some(c) && s'.view == EditCampaign
    ensures s'.campaigns == s.campaigns && s'.posts == s.posts
  {
    SetView(SetSelectedCampaign(s, Some(c)), EditCampaign)
  }

  /** `handleManageCampaign`: select the campaign and open its planner. */
  function HandleManageCampaign(s: AppState, c: Campaign): (s': AppState)
    ensures s'.selectedCampaign == Some(c) && s'.view == Planner
    ensures s'.campaigns == s.campaigns && s'.posts == s.posts
  {
    SetView(SetSelectedCampaign(s, Some(c)), Planner)
  }

  /** `handleCreateNew`: drop the selection and open an empty form. */
  function HandleCreateNew(s: AppState): (s': AppState)
    ensures s'.selectedCampaign.None? && s'.view == NewCampaign
    ensures s'.campaigns == s.campaigns && s'.posts == s.posts
  {
    SetView(SetSelectedCampaign(s, None), NewCampaign)
  }

  /**
   * `renderView`: both campaign views render the form, in edit mode only for
   * the edit view. The `default` arm cannot be reached: ViewState has
   * exactly the four cases.
   */
  function RenderView(v: ViewState): (r: Screen)
    ensures r == DashboardScreen <==> v == Dashboard
    ensures r == PlannerScreen <==> v == Planner
    ensures r.FormScreen? <==> v == NewCampaign || v == EditCampaign
    ensures r.FormScreen? ==> (r.isEditing <==> v == EditCampaign)
  {
    match v
    case Dashboard => DashboardScreen
    case NewCampaign => FormScreen(false)
    case EditCampaign => FormScreen(true)
    case Planner => PlannerScreen
  }

  /** Different views render different screens. */
  lemma RenderViewInjective(v: ViewState, w: ViewState)
    ensures RenderView(v) == RenderView(w) <==> v == w
  {
  }

  /**
   * Choosing "edit" on the dashboard shows the form in edit mode, and the
   * form then holds exactly the chosen campaign's fields.
   */
  lemma {:induction false} EditShowsCampaign(s: AppState, c: Campaign, f: FormData)
    ensures var s' := HandleEditCampaign(s, c);
            && RenderView(s'.view) == FormScreen(true)
            && LoadForEdit(f, RenderView(s'.view).isEditing, s'.selectedCampaign) == FormOf(c)
  {
    var s' := HandleEditCampaign(s, c);
    assert RenderView(s'.view) == FormScreen(true);
  }

  /**
   * Choosing "create" shows the form in create mode, so submitting it always
   * adds a campaign, whatever was selected before.
   */
  lemma {:induction false} CreateNewAdds(s: AppState, f: FormData, newId: string, now: int)
    ensures var s' := HandleCreateNew(s);
            var s'' := Submit(s', f, RenderView(s'.view).isEditing, newId, now);
            && RenderView(s'.view) == FormScreen(false)
            && |s''.campaigns| == |s.campaigns| + 1
            && s''.campaigns[|s.campaigns|] == CreatedCampaign(f, newId, now)
            && s''.view == Dashboard
  {
    var s' := HandleCreateNew(s);
    assert RenderView(s'.view) == FormScreen(false);
  }
}

=== FILE: app_context.dfy ===
/**
 * The application state store: the campaign list, the posts of each campaign
 * keyed by campaign id, the selected campaign and the current view, with the
 * mutators the views call. Each mutator is a pure transition on AppState.
 */
module AppContext {
  import opened Types

  datatype AppState = AppState(
    campaigns: seq<Campaign>,
    posts: map<string, seq<Post>>,
    selectedCampaign: Option<Campaign>,
    view: ViewState)

  /** The campaign shown on first run: id "1", the EcoSip profile, created now. */
  function SeedCampaign(now: int): (c: Campaign)
    ensures c.id == "1" && c.createdAt == now && c.logo.None?
  {
    Campaign("1", "EcoSip", "Sustainable Beverages", "Organic Coffee, Reusable Cups",
             "Eco-conscious millennials, Coffee lovers", "Friendly, Earthy, Inspiring",
             None, now)
  }

  /**
   * The state at start-up. `savedCampaigns` and `savedPosts` are what local
   * storage held, already decoded; None means nothing was saved.
   */
  function InitialState(savedCampaigns: Option<seq<Campaign>>,
                        savedPosts: Option<map<string, seq<Post>>>,
                        now: int): (s: AppState)
    ensures savedCampaigns.None? ==> |s.campaigns| == 1 && s.campaigns[0].id == "1"
    ensures savedCampaigns.None? ==> s.campaigns == [SeedCampaign(now)]
    ensures savedCampaigns.Some? ==> s.campaigns == savedCampaigns.value
    ensures savedPosts.None? ==> s.posts == map[]
    ensures savedPosts.Some? ==> s.posts == savedPosts.value
    ensures s.selectedCampaign.None? && s.view == Dashboard
  {
    AppState(savedCampaigns.GetOr([SeedCampaign(now)]), savedPosts.GetOr(map[]), None, Dashboard)
  }

  /** The ids of a campaign list, in order. */
  function Ids(cs: seq<Campaign>): (r: seq<string>)
    ensures |r| == |cs|
    ensures forall i :: 0 <= i < |cs| ==> r[i] == cs[i].id
  {
    if cs == [] then [] else [cs[0].id] + Ids(cs[1..])
  }

  predicate UniqueIds(cs: seq<Campaign>) {
    forall i, j :: 0 <= i < j < |cs| ==> cs[i].id != cs[j].id
  }

  /**
   * The start-up list has unique ids whenever it is the seed list, and
   * otherwise exactly when the saved list does: nothing is checked on load.
   */
  lemma InitialUnique(savedCampaigns: Option<seq<Campaign>>,
                      savedPosts: Option<map<string, seq<Post>>>, now: int)
    ensures UniqueIds(InitialState(savedCampaigns, savedPosts, now).campaigns) <==>
            (savedCampaigns.None? || UniqueIds(savedCampaigns.value))
  {
  }

  // ---------------------------------------------------------------- addCampaign

  /** Appends the campaign; duplicate ids are not checked. */
  function AddCampaign(s: AppState, c: Campaign): (s': AppState)
    ensures |s'.campaigns| == |s.campaigns| + 1
    ensures s'.campaigns[..|s.campaigns|] == s.campaigns
    ensures s'.campaigns[|s.campaigns|] == c
    ensures s'.posts == s.posts && s'.selectedCampaign == s.selectedCampaign && s'.view == s.view
  {
    s.(campaigns := s.campaigns + [c])
  }

  /** Adding keeps ids unique exactly when the new id is fresh. */
  lemma AddCampaignUnique(s: AppState, c: Campaign)
    requires UniqueIds(s.campaigns)
    ensures UniqueIds(AddCampaign(s, c).campaigns) <==> c.id !in Ids(s.campaigns)
  {
    var cs := AddCampaign(s, c).campaigns;
    if c.id in Ids(s.campaigns) {
      var i :| 0 <= i < |s.campaigns| && Ids(s.campaigns)[i] == c.id;
      assert cs[i].id == cs[|s.campaigns|].id;
    }
  }

  // ------------------------------------------------------------- updateCampaign

  /** `prev.map(c => c.id === u.id ? u : c)`. */
  function ReplaceById(cs: seq<Campaign>, u: Campaign): (r: seq<Campaign>)
    ensures |r| == |cs|
    ensures forall i :: 0 <= i < |cs| ==> r[i] == (if cs[i].id == u.id then u else cs[i])
  {
    if cs == [] then []
    else [if cs[0].id == u.id then u else cs[0]] + ReplaceById(cs[1..], u)
  }

  /**
   * Replaces every campaign whose id is `u.id` by `u`. The selected campaign
   * is a separate copy and is NOT refreshed.
   */
  function UpdateCampaign(s: AppState, u: Campaign): (s': AppState)
    ensures s'.campaigns == ReplaceById(s.campaigns, u)
    ensures s'.posts == s.posts && s'.selectedCampaign == s.selectedCampaign && s'.view == s.view
  {
    s.(campaigns := ReplaceById(s.campaigns, u))
  }

  /** An update with an id nobody has is a no-op. */
  lemma {:induction false} UpdateAbsentIsNoOp(cs: seq<Campaign>, u: Campaign)
    requires u.id !in Ids(cs)
    ensures ReplaceById(cs, u) == cs
  {
    var r := ReplaceById(cs, u);
    forall i | 0 <= i < |cs| ensures r[i] == cs[i] {
      assert Ids(cs)[i] == cs[i].id;
    }
  }

  /** An update never changes the id sequence, so it keeps ids unique. */
  lemma UpdateKeepsIds(cs: seq<Campaign>, u: Campaign)
    ensures Ids(ReplaceById(cs, u)) == Ids(cs)
    ensures UniqueIds(cs) ==> UniqueIds(ReplaceById(cs, u))
  {
    var r := ReplaceById(cs, u);
    forall i | 0 <= i < |cs| ensures r[i].id == cs[i].id { }
  }

  /** With unique ids, an update of a present id puts `u` at that one position. */
  lemma UpdatePresent(cs: seq<Campaign>, u: Campaign, k: nat)
    requires UniqueIds(cs)
    requires k < |cs| && cs[k].id == u.id
    ensures ReplaceById(cs, u) == cs[k := u]
  {
  }

  // ------------------------------------------------------------- deleteCampaign

  /** `prev.filter(c => c.id !== id)`. */
  function RemoveById(cs: seq<Campaign>, id: string): (r: seq<Campaign>)
    ensures |r| <= |cs|
    ensures forall c :: c in r <==> c in cs && c.id != id
  {
    if cs == [] then []
    else if cs[0].id == id then RemoveById(cs[1..], id)
    else [cs[0]] + RemoveById(cs[1..], id)
  }

  /** Filtering distributes over concatenation: the kept campaigns stay in order. */
  lemma {:induction false} RemoveByIdAppend(a: seq<Campaign>, b: seq<Campaign>, id: string)
    ensures RemoveById(a + b, id) == RemoveById(a, id) + RemoveById(b, id)
    decreases |a|
  {
    if a != [] {
      assert (a + b)[1..] == a[1..] + b;
      RemoveByIdAppend(a[1..], b, id);
    } else {
      assert a + b == b;
    }
  }

  /** Nothing is removed when no campaign has the id. */
  lemma {:induction false} RemoveAbsentIsNoOp(cs: seq<Campaign>, id: string)
    requires id !in Ids(cs)
    ensures RemoveById(cs, id) == cs
    decreases |cs|
  {
    if cs != [] {
      assert Ids(cs)[0] == cs[0].id;
      assert Ids(cs[1..]) == Ids(cs)[1..];
      RemoveAbsentIsNoOp(cs[1..], id);
    }
  }

  /** With unique ids, deleting a present id removes exactly that one position. */
  lemma {:induction false} RemovePresent(cs: seq<Campaign>, id: string, k: nat)
    requires UniqueIds(cs)
    requires k < |cs| && cs[k].id == id
    ensures RemoveById(cs, id) == cs[..k] + cs[k+1..]
  {
    assert cs == cs[..k] + ([cs[k]] + cs[k+1..]);
    RemoveByIdAppend(cs[..k], [cs[k]] + cs[k+1..], id);
    RemoveByIdAppend([cs[k]], cs[k+1..], id);
    forall j | 0 <= j < k ensures Ids(cs[..k])[j] != id { }
    RemoveAbsentIsNoOp(cs[..k], id);
    var tail := cs[k+1..];
    forall j | 0 <= j < |tail| ensures tail[j].id != id {
      assert tail[j] == cs[k + 1 + j];
    }
    RemoveAbsentIsNoOp(tail, id);
    assert [cs[k]][1..] == [];
  }

  /** Deleting keeps ids unique, and the id is gone afterwards. */
  lemma {:induction false} RemoveKeepsUnique(cs: seq<Campaign>, id: string)
    requires UniqueIds(cs)
    ensures UniqueIds(RemoveById(cs, id))
    ensures id !in Ids(RemoveById(cs, id))
    decreases |cs|
  {
    RemoveDropsId(cs, id);
    if cs != [] {
      TailUnique(cs);
      RemoveKeepsUnique(cs[1..], id);
      if cs[0].id != id {
        var t := RemoveById(cs[1..], id);
        HeadIdNotInTail(cs);
        assert forall c :: c in t ==> c in cs[1..];
        ConsUnique(cs[0], t);
        assert RemoveById(cs, id) == [cs[0]] + t;
      }
    }
  }

  lemma RemoveDropsId(cs: seq<Campaign>, id: string)
    ensures id !in Ids(RemoveById(cs, id))
  {
    var r := RemoveById(cs, id);
    forall i | 0 <= i < |r| ensures Ids(r)[i] != id {
      assert r[i] in r;
    }
  }

  lemma TailUnique(cs: seq<Campaign>)
    requires UniqueIds(cs) && cs != []
    ensures UniqueIds(cs[1..])
  {
    forall i, j | 0 <= i < j < |cs[1..]| ensures cs[1..][i].id != cs[1..][j].id {
      assert cs[1..][i] == cs[i + 1] && cs[1..][j] == cs[j + 1];
    }
  }

  lemma ConsUnique(h: Campaign, t: seq<Campaign>)
    requires UniqueIds(t)
    requires forall c :: c in t ==> c.id != h.id
    ensures UniqueIds([h] + t)
  {
    var r := [h] + t;
    forall i, j | 0 <= i < j < |r| ensures r[i].id != r[j].id {
      assert r[j] == t[j - 1] && r[j] in t;
      if i > 0 {
        assert r[i] == t[i - 1];
      }
    }
  }

  lemma HeadIdNotInTail(cs: seq<Campaign>)
    requires UniqueIds(cs) && cs != []
    ensures forall c :: c in cs[1..] ==> c.id != cs[0].id
  {
    forall c | c in cs[1..] ensures c.id != cs[0].id {
      var m :| 0 <= m < |cs[1..]| && cs[1..][m] == c;
      assert cs[1 + m] == c;
    }
  }

  /**
   * Removes every campaign with the id. When the selected campaign has that
   * id the selection is cleared and the view goes back to the dashboard;
   * otherwise both are kept. The posts map is not touched: no cascade.
   */
  function DeleteCampaign(s: AppState, id: string): (s': AppState)
    ensures s'.campaigns == RemoveById(s.campaigns, id)
    ensures s'.posts == s.posts
    ensures (s.selectedCampaign.Some? && s.selectedCampaign.value.id == id) ==>
              s'.selectedCampaign.None? && s'.view == Dashboard
    ensures !(s.selectedCampaign.Some? && s.selectedCampaign.value.id == id) ==>
              s'.selectedCampaign == s.selectedCampaign && s'.view == s.view
  {
    var s1 := s.(campaigns := RemoveById(s.campaigns, id));
    if s.selectedCampaign.Some? && s.selectedCampaign.value.id == id then
      s1.(selectedCampaign := None, view := Dashboard)
    else s1
  }

  /** After a delete the selection never refers to the deleted id. */
  lemma DeleteClearsDangling(s: AppState, id: string)
    ensures var s' := DeleteCampaign(s, id);
            s'.selectedCampaign.None? || s'.selectedCampaign.value.id != id
  {
  }

  // ------------------------------------------------------------------ savePosts

  /** The posts stored for a campaign, or the empty list. */
  function PostsOf(posts: map<string, seq<Post>>, cid: string): seq<Post> {
    if cid in posts then posts[cid] else []
  }

  /**
   * Appends the posts to the campaign's list, creating it if absent. Every
   * other campaign's list is kept.
   */
  function SavePosts(s: AppState, cid: string, ps: seq<Post>): (s': AppState)
    ensures cid in s'.posts && s'.posts.Keys == s.posts.Keys + {cid}
    ensures |s'.posts[cid]| == |PostsOf(s.posts, cid)| + |ps|
    ensures s'.posts[cid][..|PostsOf(s.posts, cid)|] == PostsOf(s.posts, cid)
    ensures s'.posts[cid][|PostsOf(s.posts, cid)|..] == ps
    ensures forall k :: k in s.posts && k != cid ==> s'.posts[k] == s.posts[k]
    ensures s'.campaigns == s.campaigns && s'.selectedCampaign == s.selectedCampaign && s'.view == s.view
  {
    s.(posts := s.posts[cid := PostsOf(s.posts, cid) + ps])
  }

  /** Two commits append in order: saving `a` then `b` equals saving `a + b`. */
  lemma SavePostsTwice(s: AppState, cid: string, a: seq<Post>, b: seq<Post>)
    ensures SavePosts(SavePosts(s, cid, a), cid, b) == SavePosts(s, cid, a + b)
  {
    assert PostsOf(s.posts, cid) + a + b == PostsOf(s.posts, cid) + (a + b);
  }

  // ----------------------------------------------------------- plain setters

  function SetSelectedCampaign(s: AppState, c: Option<Campaign>): (s': AppState)
    ensures s'.selectedCampaign == c
    ensures s'.campaigns == s.campaigns && s'.posts == s.posts && s'.view == s.view
  {
    s.(selectedCampaign := c)
  }

  function SetView(s: AppState, v: ViewState): (s': AppState)
    ensures s'.view == v
    ensures s'.campaigns == s.campaigns && s'.posts == s.posts && s'.selectedCampaign == s.selectedCampaign
  {
    s.(view := v)
  }
}

=== FILE: campaign_form.dfy ===
/**
 * The campaign form: the editable copy of a campaign's descriptive fields,
 * loaded from the selected campaign when editing, and the submit handler
 * that either updates that campaign or creates a new one.
 */
module CampaignForm {
  import opened Types
  import opened AppContext

  /** A campaign without its id and creation time; the logo is a plain string. */
  datatype FormData = FormData(
    companyName: string,
    niche: string,
    services: string,
    targetAudience: string,
    brandVoice: string,
    logo: string)

  const EmptyForm: FormData := FormData("", "", "", "", "", "")

  /** The form fields read off a campaign; a missing logo reads as "". */
  function FormOf(c: Campaign): (f: FormData)
    ensures f.logo == c.logo.GetOr("")
    ensures f.companyName == c.companyName && f.niche == c.niche && f.services == c.services
    ensures f.targetAudience == c.targetAudience && f.brandVoice == c.brandVoice
  {
    FormData(c.companyName, c.niche, c.services, c.targetAudience, c.brandVoice, c.logo.GetOr(""))
  }

  /**
   * `{ ...c, ...form }`: the form's six fields override the campaign's, so
   * only the id and the creation time survive, and the logo is always set
   * (possibly to "").
   */
  function ApplyForm(c: Campaign, f: FormData): (r: Campaign)
    ensures r.id == c.id && r.createdAt == c.createdAt
    ensures r.logo.Some?
    ensures FormOf(r) == f
  {
    Campaign(c.id, f.companyName, f.niche, f.services, f.targetAudience, f.brandVoice,
             Some(f.logo), c.createdAt)
  }

  /**
   * The load effect: when editing with a selected campaign the form is
   * replaced by that campaign's fields; otherwise it is left as it was.
   */
  function LoadForEdit(f: FormData, isEditing: bool, selected: Option<Campaign>): (f': FormData)
    ensures isEditing && selected.Some? ==> f' == FormOf(selected.value)
    ensures !(isEditing && selected.Some?) ==> f' == f
  {
    if isEditing && selected.Some? then FormOf(selected.value) else f
  }

  /**
   * The form as the component shows it after mounting: all six fields empty,
   * then overwritten by the load effect when editing a selected campaign.
   */
  function InitialForm(isEditing: bool, selected: Option<Campaign>): (f: FormData)
    ensures isEditing && selected.Some? ==> f == FormOf(selected.value)
    ensures !isEditing || selected.None? ==>
              f.companyName == [] && f.niche == [] && f.services == []
              && f.targetAudience == [] && f.brandVoice == [] && f.logo == []
  {
    LoadForEdit(EmptyForm, isEditing, selected)
  }

  /** Applying a form and loading the result gives the form back. */
  lemma ApplyThenLoad(c: Campaign, f: FormData, any: FormData)
    ensures LoadForEdit(any, true, Some(ApplyForm(c, f))) == f
  {
  }

  /**
   * Loading a campaign and submitting the form unchanged writes back the same
   * campaign, except that a missing logo becomes the empty string.
   */
  lemma {:induction false} LoadThenApply(c: Campaign, any: FormData)
    ensures ApplyForm(c, LoadForEdit(any, true, Some(c))) == c.(logo := Some(c.logo.GetOr("")))
    ensures ApplyForm(c, LoadForEdit(any, true, Some(c))) == c <==> c.logo.Some?
  {
    var r := ApplyForm(c, LoadForEdit(any, true, Some(c)));
    if r == c {
      assert c.logo == r.logo;
    }
  }

  /** The campaign a create submit adds. */
  function CreatedCampaign(f: FormData, newId: string, now: int): (c: Campaign)
    ensures c.id == newId && c.createdAt == now
    ensures FormOf(c) == f && c.logo.Some?
  {
    Campaign(newId, f.companyName, f.niche, f.services, f.targetAudience, f.brandVoice,
             Some(f.logo), now)
  }

  /**
   * `handleSubmit`: when editing with a selected campaign, the campaign with
   * that id is overwritten by the form; otherwise a campaign is created with
   * the fresh id `newId` and the time `now`. Either way the view goes back to
   * the dashboard, and the selection is left as it was.
   */
  function Submit(s: AppState, f: FormData, isEditing: bool, newId: string, now: int): (s': AppState)
    ensures s'.view == Dashboard
    ensures s'.posts == s.posts && s'.selectedCampaign == s.selectedCampaign
    ensures isEditing && s.selectedCampaign.Some? ==>
              s'.campaigns == ReplaceById(s.campaigns, ApplyForm(s.selectedCampaign.value, f))
    ensures !(isEditing && s.selectedCampaign.Some?) ==>
              && |s'.campaigns| == |s.campaigns| + 1
              && s'.campaigns[..|s.campaigns|] == s.campaigns
              && s'.campaigns[|s.campaigns|] == CreatedCampaign(f, newId, now)
  {
    var s1 :=
      if isEditing && s.selectedCampaign.Some? then
        UpdateCampaign(s, ApplyForm(s.selectedCampaign.value, f))
      else
        AddCampaign(s, CreatedCampaign(f, newId, now));
    SetView(s1, Dashboard)
  }

  /** A create submit keeps ids unique exactly when the new id is fresh. */
  lemma SubmitCreateUnique(s: AppState, f: FormData, isEditing: bool, newId: string, now: int)
    requires UniqueIds(s.campaigns)
    requires !(isEditing && s.selectedCampaign.Some?)
    ensures UniqueIds(Submit(s, f, isEditing, newId, now).campaigns) <==> newId !in Ids(s.campaigns)
  {
    AddCampaignUnique(s, CreatedCampaign(f, newId, now));
  }

  /**
   * An edit submit overwrites just the selected campaign's position, keeping
   * its id and creation time; the selection itself still holds the old copy.
   */
  lemma {:induction false} SubmitEditInPlace(s: AppState, f: FormData, newId: string, now: int, k: nat)
    requires UniqueIds(s.campaigns)
    requires s.selectedCampaign.Some?
    requires k < |s.campaigns| && s.campaigns[k].id == s.selectedCampaign.value.id
    ensures var s' := Submit(s, f, true, newId, now);
            && s'.campaigns == s.campaigns[k := ApplyForm(s.selectedCampaign.value, f)]
            && s'.campaigns[k].id == s.campaigns[k].id
            && FormOf(s'.campaigns[k]) == f
            && UniqueIds(s'.campaigns)
  {
    var u := ApplyForm(s.selectedCampaign.value, f);
    UpdatePresent(s.campaigns, u, k);
    UpdateKeepsIds(s.campaigns, u);
  }

  /** Editing a campaign that is no longer in the list changes no campaign. */
  lemma {:induction false} SubmitEditOfRemoved(s: AppState, f: FormData, newId: string, now: int)
    requires s.selectedCampaign.Some? && s.selectedCampaign.value.id !in Ids(s.campaigns)
    ensures Submit(s, f, true, newId, now).campaigns == s.campaigns
  {
    UpdateAbsentIsNoOp(s.campaigns, ApplyForm(s.selectedCampaign.value, f));
  }

  /** Removing the logo clears it and keeps every other field. */
  function RemoveLogo(f: FormData): (f': FormData)
    ensures f'.logo == []
    ensures f'.companyName == f.companyName && f'.niche == f.niche && f'.services == f.services
    ensures f'.targetAudience == f.targetAudience && f'.brandVoice == f.brandVoice
  {
    f.(logo := "")
  }

  /** A finished file read stores the reader's data URL as the logo. */
  function UploadLogo(f: FormData, dataUrl: string): (f': FormData)
    ensures f'.logo == dataUrl
    ensures RemoveLogo(f') == RemoveLogo(f)
  {
    f.(logo := dataUrl)
  }
}

=== FILE: consultant_chat.dfy ===
/**
 * The consultant chat panel: the message list, the input box and the
 * loading flag. Sending is split into its two halves: the synchronous part
 * that appends the user's message and builds the history sent to the
 * consultant, and the completion that appends the reply and clears the flag.
 */
module ConsultantChat {
  import opened Types
  import opened Strings
  import opened GeminiService

  datatype ChatState = ChatState(messages: seq<ChatMessage>, input: string, loading: bool)

  const WelcomeText: string :=
    "Hello! I'm your AI Marketing Expert. How can I help you grow your brand today?"

  /** The panel as first shown: the welcome message only, stamped `now`. */
  function InitialChat(now: int): (st: ChatState)
    ensures |st.messages| == 1 && st.messages[0].role == Model
    ensures st.messages[0].id == "welcome" && st.messages[0].text == WelcomeText
    ensures st.input == [] && !st.loading
  {
    ChatState([ChatMessage("welcome", Model, WelcomeText, now)], "", false)
  }

  /** Typing replaces the input text. */
  function SetInput(st: ChatState, text: string): (st': ChatState)
    ensures st'.input == text
    ensures st'.messages == st.messages && st'.loading == st.loading
  {
    st.(input := text)
  }

  /** The role and text of each message, in order: what the consultant sees. */
  function Turns(ms: seq<ChatMessage>): (r: seq<Turn>)
    ensures |r| == |ms|
    ensures forall i :: 0 <= i < |ms| ==> r[i].role == ms[i].role && r[i].text == ms[i].text
  {
    seq(|ms|, i requires 0 <= i < |ms| => Turn(ms[i].role, ms[i].text))
  }

  datatype SendStart =
    | Ignored
    | Started(state: ChatState, history: seq<Turn>)

  /**
   * The synchronous half of `handleSend`. A blank input or a pending reply
   * makes it do nothing. Otherwise the untrimmed input is appended as a user
   * message with id `userId`, the input is cleared, the panel starts loading,
   * and the history handed to the consultant is the new message list.
   */
  function SendBegin(st: ChatState, userId: string, now: int): (r: SendStart)
    ensures r.Ignored? <==> IsBlank(st.input) || st.loading
    ensures r.Started? ==>
              && r.state.messages == st.messages + [ChatMessage(userId, User, st.input, now)]
              && r.state.input == [] && r.state.loading
              && |r.history| == |st.messages| + 1
              && r.history[|st.messages|] == Turn(User, st.input)
              && r.history[..|st.messages|] == Turns(st.messages)
  {
    if IsBlank(st.input) || st.loading then Ignored
    else
      var userMsg := ChatMessage(userId, User, st.input, now);
      var ms := st.messages + [userMsg];
      Started(ChatState(ms, "", true), Turns(ms))
  }

  /**
   * The completion of `handleSend`. `reply` is the consultant's answer, or
   * None when the call raised before answering; an answer is appended as a
   * model message with id `botId`. Loading ends either way; whatever was
   * typed meanwhile stays in the input.
   */
  function SendComplete(st: ChatState, reply: Option<string>, botId: string, now: int): (st': ChatState)
    ensures !st'.loading && st'.input == st.input
    ensures reply.None? ==> st'.messages == st.messages
    ensures reply.Some? ==>
              && |st'.messages| == |st.messages| + 1
              && st'.messages[..|st.messages|] == st.messages
              && st'.messages[|st.messages|] == ChatMessage(botId, Model, reply.value, now)
  {
    var ms := if reply.Some? then st.messages + [ChatMessage(botId, Model, reply.value, now)] else st.messages;
    ChatState(ms, st.input, false)
  }

  /**
   * What the panel keeps true between events: the welcome message comes
   * first, every user message has visible text, a model message is never
   * followed by another model message, and while a reply is pending the
   * last message is the user's.
   */
  predicate Valid(st: ChatState) {
    && |st.messages| >= 1
    && st.messages[0].id == "welcome" && st.messages[0].role == Model
    && (forall i :: 0 <= i < |st.messages| && st.messages[i].role == User ==> !IsBlank(st.messages[i].text))
    && (forall i :: 0 <= i < |st.messages| - 1 && st.messages[i].role == Model ==> st.messages[i + 1].role == User)
    && (st.loading ==> st.messages[|st.messages| - 1].role == User)
  }

  lemma InitialValid(now: int)
    ensures Valid(InitialChat(now))
  {
  }

  lemma {:induction false} SetInputValid(st: ChatState, text: string)
    requires Valid(st)
    ensures Valid(SetInput(st, text))
  {
    assert SetInput(st, text).messages == st.messages;
  }

  lemma {:induction false} SendBeginValid(st: ChatState, userId: string, now: int)
    requires Valid(st)
    ensures SendBegin(st, userId, now).Started? ==> Valid(SendBegin(st, userId, now).state)
  {
    var r := SendBegin(st, userId, now);
    if r.Started? {
      var ms := r.state.messages;
      var n := |st.messages|;
      assert ms == st.messages + [ChatMessage(userId, User, st.input, now)];
      forall i | 0 <= i < |ms| && ms[i].role == User ensures !IsBlank(ms[i].text) {
        if i < n {
          assert ms[i] == st.messages[i];
        }
      }
      forall i | 0 <= i < |ms| - 1 && ms[i].role == Model ensures ms[i + 1].role == User {
        if i + 1 < n {
          assert ms[i] == st.messages[i] && ms[i + 1] == st.messages[i + 1];
        }
      }
    }
  }

  /** A reply arriving while loading keeps the panel valid. */
  lemma {:induction false} SendCompleteValid(st: ChatState, reply: Option<string>, botId: string, now: int)
    requires Valid(st) && st.loading
    ensures Valid(SendComplete(st, reply, botId, now))
  {
    var ms := SendComplete(st, reply, botId, now).messages;
    var n := |st.messages|;
    if reply.Some? {
      assert ms == st.messages + [ChatMessage(botId, Model, reply.value, now)];
      forall i | 0 <= i < |ms| && ms[i].role == User ensures !IsBlank(ms[i].text) {
        assert i < n;
        assert ms[i] == st.messages[i];
      }
      forall i | 0 <= i < |ms| - 1 && ms[i].role == Model ensures ms[i + 1].role == User {
        assert ms[i] == st.messages[i];
        if i + 1 < n {
          assert ms[i + 1] == st.messages[i + 1];
        }
      }
    }
  }

  /**
   * A full exchange on a valid, idle panel with visible input: the history
   * the consultant receives ends with the user's text, and a reply from the
   * consultant (never empty) is the last message afterwards.
   */
  lemma {:induction false} ExchangeAppendsTwo(st: ChatState, userId: string, botId: string, now: int,
                                               answer: Option<Option<string>>)
    requires Valid(st) && !st.loading && !IsBlank(st.input)
    ensures SendBegin(st, userId, now).Started?
    ensures var r := SendBegin(st, userId, now);
            var st' := SendComplete(r.state, Some(ConsultReply(answer)), botId, now);
            && Valid(st')
            && |st'.messages| == |st.messages| + 2
            && st'.messages[|st.messages|].text == st.input
            && st'.messages[|st.messages| + 1].role == Model
            && st'.messages[|st.messages| + 1].text != []
  {
    var r := SendBegin(st, userId, now);
    SendBeginValid(st, userId, now);
    SendCompleteValid(r.state, Some(ConsultReply(answer)), botId, now);
  }
}

=== FILE: csv_export.dfy ===
/**
 * The content-calendar export: one header line and one comma-separated row
 * per displayed post. Caption and visual prompt are quoted with their double
 * quotes doubled; hashtags are quoted but not escaped; the other cells are
 * written bare. A small reader for one CSV record (quoted fields with `""`
 * escapes, bare fields up to the next comma) states what a row reads back as.
 */
module CsvExport {
  import opened Types
  import opened Strings
  import GeminiService

  const CsvPrefix: string := "data:text/csv;charset=utf-8,"
  const HeaderCells: seq<string> :=
    ["Date", "Platform", "Status", "Caption", "Hashtags", "Visual Prompt", "Visual URL"]
  const Header: string := Join(HeaderCells, ',')

  /** A cell written in quotes with every `"` doubled. */
  function QuoteCell(t: string): (r: string)
    ensures |r| >= 2 && r[0] == '"' && r[|r| - 1] == '"'
  {
    "\"" + DoubleQuotes(t) + "\""
  }

  /** The seven values a row is meant to carry, in header order. */
  function Fields(p: Post): (r: seq<string>)
    ensures |r| == 7
  {
    [p.day, PlatformName(p.platform), StatusName(p.status), p.caption,
     Join(p.hashtags, ' '), p.visualDescription, p.visualUrl.GetOr("")]
  }

  /** The seven cells as the export writes them. */
  function WrittenCells(p: Post): (r: seq<string>)
    ensures |r| == 7
  {
    [p.day, PlatformName(p.platform), StatusName(p.status),
     QuoteCell(p.caption),
     "\"" + Join(p.hashtags, ' ') + "\"",
     QuoteCell(p.visualDescription),
     p.visualUrl.GetOr("")]
  }

  /**
   * How each written cell relates to the value it carries: day, platform,
   * status and URL are written bare, caption and prompt quoted with their
   * quotes doubled, and the hashtags quoted without doubling.
   */
  lemma WrittenCellsOfFields(p: Post)
    ensures var w, f := WrittenCells(p), Fields(p);
            && w[0] == f[0] && w[1] == f[1] && w[2] == f[2] && w[6] == f[6]
            && w[3] == QuoteCell(f[3]) && w[5] == QuoteCell(f[5])
            && w[4] == "\"" + f[4] + "\""
  {
  }

  /** One row as the export writes it. */
  function CsvRow(p: Post): string {
    Join(WrittenCells(p), ',')
  }

  /** The rows of a post list, in order. */
  function CsvRows(ps: seq<Post>): (r: seq<string>)
    ensures |r| == |ps|
    ensures forall i :: 0 <= i < |ps| ==> r[i] == CsvRow(ps[i])
  {
    if ps == [] then [] else [CsvRow(ps[0])] + CsvRows(ps[1..])
  }

  /**
   * The exported text: nothing for an empty list, otherwise the data-URI
   * prefix, the header and one line per post, joined by newlines.
   */
  function CsvContent(ps: seq<Post>): (r: Option<string>)
    ensures r.None? <==> ps == []
    ensures r.Some? ==> StartsWith(r.value, CsvPrefix)
    ensures r.Some? ==> StartsWith(r.value[|CsvPrefix|..], Header)
  {
    if ps == [] then None
    else
      var body := Join([Header] + CsvRows(ps), '\n');
      JoinHead([Header] + CsvRows(ps), '\n');
      Some(CsvPrefix + body)
  }

  /** No cell of the post's row holds a line break. */
  predicate SingleLine(p: Post) {
    forall k :: 0 <= k < 7 ==> '\n' !in WrittenCells(p)[k]
  }

  /**
   * When no cell holds a line break, the exported text splits into the
   * header followed by exactly one line per post, in order.
   */
  lemma {:induction false} CsvLines(ps: seq<Post>)
    requires ps != []
    requires forall i :: 0 <= i < |ps| ==> SingleLine(ps[i])
    ensures CsvContent(ps).Some?
    ensures Split(CsvContent(ps).value[|CsvPrefix|..], '\n') == [Header] + CsvRows(ps)
  {
    var lines := [Header] + CsvRows(ps);
    forall i | 0 <= i < |lines| ensures '\n' !in lines[i] {
      if i > 0 {
        assert lines[i] == CsvRows(ps)[i - 1];
        RowOneLine(ps[i - 1]);
      } else {
        HeaderOneLine();
      }
    }
    SplitJoin(lines, '\n');
    assert CsvContent(ps).value[|CsvPrefix|..] == Join(lines, '\n');
  }

  lemma HeaderOneLine()
    ensures '\n' !in Header
  {
    JoinExcludes(HeaderCells, ',', '\n');
  }

  lemma RowOneLine(p: Post)
    requires SingleLine(p)
    ensures '\n' !in CsvRow(p)
  {
    JoinExcludes(WrittenCells(p), ',', '\n');
  }

  /** The first piece always starts a join. */
  lemma JoinHead(ps: seq<string>, c: char)
    requires |ps| >= 1
    ensures StartsWith(Join(ps, c), ps[0])
  {
    if |ps| > 1 {
      assert Join(ps, c) == ps[0] + ([c] + Join(ps[1..], c));
    }
  }

  // ------------------------------------------------------------- the reader

  /** The index of the first comma, or the length when there is none. */
  function FieldEnd(s: string): (k: nat)
    ensures k <= |s|
    ensures ',' !in s[..k]
    ensures k < |s| ==> s[k] == ','
  {
    if s == [] then 0
    else if s[0] == ',' then 0
    else
      var k := 1 + FieldEnd(s[1..]);
      assert s[..k] == [s[0]] + s[1..][..k - 1];
      k
  }

  /**
   * Reads the inside of a quoted field: `""` stands for `"`, a single `"`
   * closes the field. Returns the value and what follows the closing quote.
   */
  function ReadQuoted(t: string): (r: (string, string))
    ensures |r.1| <= |t|
  {
    if t == [] then ([], [])
    else if t[0] == '"' then
      if |t| > 1 && t[1] == '"' then
        var q := ReadQuoted(t[2..]);
        (['"'] + q.0, q.1)
      else ([], t[1..])
    else
      var q := ReadQuoted(t[1..]);
      ([t[0]] + q.0, q.1)
  }

  /**
   * Reads the first field of a record: its value, and the text after the
   * comma that ends it, or None when the field runs to the end.
   */
  function ReadField(s: string): (r: (string, Option<string>))
    ensures r.1.Some? ==> |r.1.value| < |s|
  {
    if |s| > 0 && s[0] == '"' then
      var q := ReadQuoted(s[1..]);
      var k := FieldEnd(q.1);
      if k == |q.1| then (q.0 + q.1, None)
      else (q.0 + q.1[..k], Some(q.1[k + 1..]))
    else
      var k := FieldEnd(s);
      if k == |s| then (s, None)
      else (s[..k], Some(s[k + 1..]))
  }

  /** Reads one CSV record into its field values. */
  function ReadRow(s: string): (r: seq<string>)
    ensures |r| >= 1
    decreases |s|
  {
    var f := ReadField(s);
    [f.0] + (if f.1.Some? then ReadRow(f.1.value) else [])
  }

  /** Reading a quote-doubled value up to its closing quote gives the value back. */
  lemma {:induction false} ReadQuotedCell(t: string, rest: string)
    requires rest == [] || rest[0] != '"'
    ensures ReadQuoted(DoubleQuotes(t) + "\"" + rest) == (t, rest)
    decreases |t|
  {
    if t == [] {
      assert DoubleQuotes(t) + "\"" + rest == "\"" + rest;
      ReadQuotedClose(rest);
    } else {
      var h := if t[0] == '"' then "\"\"" else [t[0]];
      var u := DoubleQuotes(t[1..]) + "\"" + rest;
      DoubleQuotesCons(t);
      AppendAssoc(h, DoubleQuotes(t[1..]), "\"", rest);
      ReadQuotedCell(t[1..], rest);
      if t[0] == '"' {
        ReadQuotedEscaped(u);
      } else {
        ReadQuotedPlain(t[0], u);
      }
      assert [t[0]] + t[1..] == t;
    }
  }

  lemma DoubleQuotesCons(t: string)
    requires t != []
    ensures DoubleQuotes(t) == (if t[0] == '"' then "\"\"" else [t[0]]) + DoubleQuotes(t[1..])
  {
  }

  lemma AppendAssoc(a: string, b: string, c: string, d: string)
    ensures (a + b) + c + d == a + (b + c + d)
  {
  }

  lemma ReadQuotedClose(rest: string)
    requires rest == [] || rest[0] != '"'
    ensures ReadQuoted("\"" + rest) == ([], rest)
  {
    assert ("\"" + rest)[1..] == rest;
  }

  lemma ReadQuotedEscaped(u: string)
    ensures ReadQuoted("\"\"" + u) == (['"'] + ReadQuoted(u).0, ReadQuoted(u).1)
  {
    assert ("\"\"" + u)[2..] == u;
  }

  lemma ReadQuotedPlain(c: char, u: string)
    requires c != '"'
    ensures ReadQuoted([c] + u) == ([c] + ReadQuoted(u).0, ReadQuoted(u).1)
  {
    assert ([c] + u)[1..] == u;
  }

  /** A cell as written: bare text, or quoted with `"` doubled. */
  datatype Cell = Bare(text: string) | Quoted(text: string)

  function Render(c: Cell): string {
    match c
    case Bare(t) => t
    case Quoted(t) => QuoteCell(t)
  }

  /** A bare cell reads back only without a comma and without a leading quote. */
  predicate ReadsBack(c: Cell) {
    c.Bare? ==> ',' !in c.text && (c.text == [] || c.text[0] != '"')
  }

  function RenderAll(cs: seq<Cell>): (r: seq<string>)
    ensures |r| == |cs|
    ensures forall i :: 0 <= i < |cs| ==> r[i] == Render(cs[i])
  {
    seq(|cs|, i requires 0 <= i < |cs| => Render(cs[i]))
  }

  function Texts(cs: seq<Cell>): (r: seq<string>)
    ensures |r| == |cs|
    ensures forall i :: 0 <= i < |cs| ==> r[i] == cs[i].text
  {
    seq(|cs|, i requires 0 <= i < |cs| => cs[i].text)
  }

  /** One cell followed by nothing or by a comma and more text. */
  lemma ReadCell(c: Cell, rest: string)
    requires ReadsBack(c)
    requires rest == [] || rest[0] == ','
    ensures ReadRow(Render(c) + rest) ==
              [c.text] + (if rest == [] then [] else ReadRow(rest[1..]))
  {
    if c.Quoted? {
      ReadQuotedField(c.text, rest);
    } else {
      ReadBareField(c.text, rest);
    }
  }

  lemma ReadQuotedField(t: string, rest: string)
    requires rest == [] || rest[0] == ','
    ensures ReadRow(QuoteCell(t) + rest) ==
              [t] + (if rest == [] then [] else ReadRow(rest[1..]))
  {
    var s := QuoteCell(t) + rest;
    QuoteCellTail(t, rest);
    ReadQuotedCell(t, rest);
    ReadFieldOpenQuote(s, t, rest);
  }

  lemma QuoteCellTail(t: string, rest: string)
    ensures |QuoteCell(t) + rest| > 0 && (QuoteCell(t) + rest)[0] == '"'
    ensures (QuoteCell(t) + rest)[1..] == DoubleQuotes(t) + "\"" + rest
  {
    AppendAssoc("\"", DoubleQuotes(t), "\"", rest);
    assert QuoteCell(t) + rest == "\"" + (DoubleQuotes(t) + "\"" + rest);
  }

  /** A record opening with a quoted field that ends at a comma or at the end. */
  lemma ReadFieldOpenQuote(s: string, v: string, rest: string)
    requires |s| > 0 && s[0] == '"' && ReadQuoted(s[1..]) == (v, rest)
    requires rest == [] || rest[0] == ','
    ensures ReadField(s) == (v, if rest == [] then None else Some(rest[1..]))
  {
    assert FieldEnd(rest) == 0;
    assert v + rest[..0] == v;
    if rest == [] {
      assert v + rest == v;
    }
  }

  lemma ReadBareField(t: string, rest: string)
    requires ',' !in t && (t == [] || t[0] != '"')
    requires rest == [] || rest[0] == ','
    ensures ReadRow(t + rest) ==
              [t] + (if rest == [] then [] else ReadRow(rest[1..]))
  {
    ReadFieldBare(t, rest);
  }

  /** A record opening with a bare field that ends at a comma or at the end. */
  lemma ReadFieldBare(t: string, rest: string)
    requires ',' !in t && (t == [] || t[0] != '"')
    requires rest == [] || rest[0] == ','
    ensures ReadField(t + rest) == (t, if rest == [] then None else Some(rest[1..]))
  {
    var s := t + rest;
    assert |s| > 0 ==> s[0] != '"';
    FieldEndAfter(t, rest);
    assert s[..|t|] == t;
    if rest != [] {
      assert s[|t| + 1..] == rest[1..];
    } else {
      assert s == t;
    }
  }

  lemma {:induction false} FieldEndAfter(t: string, rest: string)
    requires ',' !in t
    requires rest == [] || rest[0] == ','
    ensures FieldEnd(t + rest) == |t|
    decreases |t|
  {
    if t == [] {
      assert t + rest == rest;
    } else {
      assert (t + rest)[1..] == t[1..] + rest;
      FieldEndAfter(t[1..], rest);
    }
  }

  /** A row of cells that read back reads back as their texts. */
  lemma {:induction false} ReadRenderedRow(cs: seq<Cell>)
    requires |cs| >= 1
    requires forall i :: 0 <= i < |cs| ==> ReadsBack(cs[i])
    ensures ReadRow(Join(RenderAll(cs), ',')) == Texts(cs)
    decreases |cs|
  {
    if |cs| == 1 {
      ReadCell(cs[0], []);
      assert Render(cs[0]) + [] == Render(cs[0]);
    } else {
      var tail := Join(RenderAll(cs[1..]), ',');
      RenderAllCons(cs);
      JoinCons(RenderAll(cs), ',');
      ReadCell(cs[0], [','] + tail);
      assert ([','] + tail)[1..] == tail;
      ReadRenderedRow(cs[1..]);
      TextsCons(cs);
    }
  }

  lemma RenderAllCons(cs: seq<Cell>)
    requires |cs| >= 2
    ensures |RenderAll(cs)| >= 2
    ensures RenderAll(cs)[0] == Render(cs[0]) && RenderAll(cs)[1..] == RenderAll(cs[1..])
  {
  }

  lemma JoinCons(rs: seq<string>, c: char)
    requires |rs| >= 2
    ensures Join(rs, c) == rs[0] + ([c] + Join(rs[1..], c))
  {
  }

  lemma TextsCons(cs: seq<Cell>)
    requires |cs| >= 1
    ensures Texts(cs) == [cs[0].text] + Texts(cs[1..])
  {
  }

  // -------------------------------------------------------- rows read back

  /** The export's row as cells, when the hashtags hold no quote. */
  function RowCells(p: Post): seq<Cell> {
    [Bare(p.day), Bare(PlatformName(p.platform)), Bare(StatusName(p.status)),
     Quoted(p.caption), Quoted(Join(p.hashtags, ' ')), Quoted(p.visualDescription),
     Bare(p.visualUrl.GetOr(""))]
  }

  lemma NamesReadBack(p: Post)
    ensures ReadsBack(Bare(PlatformName(p.platform)))
    ensures ReadsBack(Bare(StatusName(p.status)))
  {
    PlatformNameReadsBack(p.platform);
    StatusNameReadsBack(p.status);
  }

  lemma PlatformNameReadsBack(x: SocialPlatform)
    ensures ReadsBack(Bare(PlatformName(x)))
  {
    match x
    case Instagram => assert PlatformName(x) == "instagram";
    case LinkedIn => assert PlatformName(x) == "linkedin";
    case Twitter => assert PlatformName(x) == "twitter";
    case Facebook => assert PlatformName(x) == "facebook";
  }

  lemma StatusNameReadsBack(x: PostStatus)
    ensures ReadsBack(Bare(StatusName(x)))
  {
    match x
    case Draft => assert StatusName(x) == "draft";
    case Scheduled => assert StatusName(x) == "scheduled";
    case Published => assert StatusName(x) == "published";
  }

  /**
   * A row reads back as the post's seven values when the bare cells (day,
   * visual URL) hold no comma and start with no quote, and the hashtags hold
   * no quote.
   */
  lemma CsvRowReadsBack(p: Post)
    requires ReadsBack(Bare(p.day)) && ReadsBack(Bare(p.visualUrl.GetOr("")))
    requires '"' !in Join(p.hashtags, ' ')
    ensures ReadRow(CsvRow(p)) == Fields(p)
  {
    var cs := RowCells(p);
    var w := WrittenCells(p);
    RowCellsReadBack(p);
    RowCellsRender(p);
    HashtagCellRender(p);
    RowCellsTexts(p);
    forall k | 0 <= k < 7 ensures RenderAll(cs)[k] == w[k] {
      if k == 4 {
      }
    }
    assert RenderAll(cs) == w;
    assert Texts(cs) == Fields(p);
    ReadRenderedRow(cs);
  }

  /** The first six cells of a row read back when the day does. */
  lemma RowCellsReadBack(p: Post)
    requires ReadsBack(Bare(p.day))
    ensures forall i :: 0 <= i < 6 ==> ReadsBack(RowCells(p)[i])
  {
    NamesReadBack(p);
  }

  /** Every cell but the hashtags renders as the export writes it. */
  lemma RowCellsRender(p: Post)
    ensures forall i :: 0 <= i < 7 && i != 4 ==> Render(RowCells(p)[i]) == WrittenCells(p)[i]
  {
  }

  /** The hashtag cell renders as written when the hashtags hold no quote. */
  lemma HashtagCellRender(p: Post)
    requires '"' !in Join(p.hashtags, ' ')
    ensures Render(RowCells(p)[4]) == WrittenCells(p)[4]
  {
  }

  lemma RowCellsTexts(p: Post)
    ensures forall i :: 0 <= i < 7 ==> RowCells(p)[i].text == Fields(p)[i]
  {
  }

  // ------------------------------------------------ cells the row mis-writes

  /**
   * A visual URL holding a comma is written bare, so the row reads back with
   * eight values: the URL is cut in two at its comma.
   */
  lemma {:induction false} VisualUrlCommaSplitsRow(p: Post, a: string, b: string)
    requires p.visualUrl == Some(a + "," + b)
    requires ReadsBack(Bare(a)) && ReadsBack(Bare(b)) && ReadsBack(Bare(p.day))
    requires '"' !in Join(p.hashtags, ' ')
    ensures ReadRow(CsvRow(p)) == Fields(p)[..6] + [a, b]
    ensures |ReadRow(CsvRow(p))| == 8
  {
    var cs := RowCells(p)[..6] + [Bare(a), Bare(b)];
    RowWithSplitUrl(p, cs);
    ReadRenderedRow(cs);
    SplitUrlTexts(p, a, b, cs);
  }

  lemma SplitUrlTexts(p: Post, a: string, b: string, cs: seq<Cell>)
    requires cs == RowCells(p)[..6] + [Bare(a), Bare(b)]
    ensures Texts(cs) == Fields(p)[..6] + [a, b]
  {
    var f := Fields(p)[..6] + [a, b];
    forall k | 0 <= k < 8 ensures Texts(cs)[k] == f[k] {
      if k < 6 {
        assert cs[k] == RowCells(p)[k];
      }
    }
  }

  lemma RowWithSplitUrl(p: Post, cs: seq<Cell>)
    requires |cs| == 8 && cs[..6] == RowCells(p)[..6] && cs[6].Bare? && cs[7].Bare?
    requires p.visualUrl == Some(cs[6].text + "," + cs[7].text)
    requires ReadsBack(cs[6]) && ReadsBack(cs[7]) && ReadsBack(Bare(p.day))
    requires '"' !in Join(p.hashtags, ' ')
    ensures forall i :: 0 <= i < 8 ==> ReadsBack(cs[i])
    ensures Join(RenderAll(cs), ',') == CsvRow(p)
  {
    var w := WrittenCells(p);
    var rc := RowCells(p);
    RowCellsReadBack(p);
    RowCellsRender(p);
    HashtagCellRender(p);
    assert cs[8..] == rc[7..] == [];
    assert w[6] == Render(cs[6]) + [','] + Render(cs[7]);
    SplitCellRow(rc, w, cs, 6);
  }

  /**
   * A row of cells `rc` rendering as `w`, with the cell at `k` replaced by two
   * cells that render as the two halves of `w[k]` around a comma: the new
   * cells still read back, and they join into the same text.
   */
  lemma SplitCellRow(rc: seq<Cell>, w: seq<string>, cs: seq<Cell>, k: nat)
    requires |rc| == |w| && k < |w| && |cs| == |w| + 1
    requires cs[..k] == rc[..k] && cs[k + 2..] == rc[k + 1..]
    requires forall i :: 0 <= i < |w| && i != k ==> ReadsBack(rc[i]) && Render(rc[i]) == w[i]
    requires ReadsBack(cs[k]) && ReadsBack(cs[k + 1])
    requires w[k] == Render(cs[k]) + [','] + Render(cs[k + 1])
    ensures forall i :: 0 <= i < |cs| ==> ReadsBack(cs[i])
    ensures Join(RenderAll(cs), ',') == Join(w, ',')
  {
    SplitCellsAgree(rc, cs, k);
    SplitCellsRender(rc, w, cs, k);
  }

  /** The cells around the split are the original cells, shifted by one after it. */
  lemma SplitCellsAgree(rc: seq<Cell>, cs: seq<Cell>, k: nat)
    requires k < |rc| && |cs| == |rc| + 1
    requires cs[..k] == rc[..k] && cs[k + 2..] == rc[k + 1..]
    ensures forall i :: 0 <= i < k ==> cs[i] == rc[i]
    ensures forall j :: k + 1 < j < |cs| ==> cs[j] == rc[j - 1]
  {
    forall i | 0 <= i < k ensures cs[i] == rc[i] {
      assert cs[i] == cs[..k][i];
    }
    forall j | k + 1 < j < |cs| ensures cs[j] == rc[j - 1] {
      assert cs[j] == cs[k + 2..][j - k - 2];
    }
  }

  lemma SplitCellsRender(rc: seq<Cell>, w: seq<string>, cs: seq<Cell>, k: nat)
    requires |rc| == |w| && k < |w| && |cs| == |w| + 1
    requires forall i :: 0 <= i < k ==> cs[i] == rc[i]
    requires forall j :: k + 1 < j < |cs| ==> cs[j] == rc[j - 1]
    requires forall i :: 0 <= i < |w| && i != k ==> ReadsBack(rc[i]) && Render(rc[i]) == w[i]
    requires ReadsBack(cs[k]) && ReadsBack(cs[k + 1])
    requires w[k] == Render(cs[k]) + [','] + Render(cs[k + 1])
    ensures forall i :: 0 <= i < |cs| ==> ReadsBack(cs[i])
    ensures Join(RenderAll(cs), ',') == Join(w, ',')
  {
    SplitCellsReadBack(rc, cs, k);
    SplitCellsRenderAs(rc, w, cs, k);
    RenderSplitAt(cs, w, k);
  }

  lemma SplitCellsReadBack(rc: seq<Cell>, cs: seq<Cell>, k: nat)
    requires k < |rc| && |cs| == |rc| + 1
    requires forall i :: 0 <= i < k ==> cs[i] == rc[i]
    requires forall j :: k + 1 < j < |cs| ==> cs[j] == rc[j - 1]
    requires forall i :: 0 <= i < |rc| && i != k ==> ReadsBack(rc[i])
    requires ReadsBack(cs[k]) && ReadsBack(cs[k + 1])
    ensures forall i :: 0 <= i < |cs| ==> ReadsBack(cs[i])
  {
    forall i | 0 <= i < |cs| ensures ReadsBack(cs[i]) {
      if i > k + 1 {
        assert cs[i] == rc[i - 1];
      }
    }
  }

  lemma SplitCellsRenderAs(rc: seq<Cell>, w: seq<string>, cs: seq<Cell>, k: nat)
    requires |rc| == |w| && k < |w| && |cs| == |w| + 1
    requires forall i :: 0 <= i < k ==> cs[i] == rc[i]
    requires forall j :: k + 1 < j < |cs| ==> cs[j] == rc[j - 1]
    requires forall i :: 0 <= i < |w| && i != k ==> Render(rc[i]) == w[i]
    ensures forall i {:trigger w[i]} :: 0 <= i < k ==> Render(cs[i]) == w[i]
    ensures forall i {:trigger w[i]} :: k < i < |w| ==> Render(cs[i + 1]) == w[i]
  {
    forall i | k < i < |w| ensures Render(cs[i + 1]) == w[i] {
      assert cs[i + 1] == rc[i];
    }
  }

  /**
   * Cells that render as the pieces of `w`, except that the piece at `k` is
   * rendered as two cells around a comma, join into the same row.
   */
  lemma RenderSplitAt(cs: seq<Cell>, w: seq<string>, k: nat)
    requires |cs| == |w| + 1 && k < |w|
    requires forall i {:trigger w[i]} :: 0 <= i < k ==> Render(cs[i]) == w[i]
    requires forall i {:trigger w[i]} :: k < i < |w| ==> Render(cs[i + 1]) == w[i]
    requires w[k] == Render(cs[k]) + [','] + Render(cs[k + 1])
    ensures Join(RenderAll(cs), ',') == Join(w, ',')
  {
    var x, y := Render(cs[k]), Render(cs[k + 1]);
    JoinSplitAt(w, k, x, y, ',');
    RenderAllSplit(cs, w, k);
  }

  lemma RenderAllSplit(cs: seq<Cell>, w: seq<string>, k: nat)
    requires |cs| == |w| + 1 && k < |w|
    requires forall i {:trigger w[i]} :: 0 <= i < k ==> Render(cs[i]) == w[i]
    requires forall i {:trigger w[i]} :: k < i < |w| ==> Render(cs[i + 1]) == w[i]
    ensures RenderAll(cs) == w[..k] + [Render(cs[k]), Render(cs[k + 1])] + w[k + 1..]
  {
    var split := w[..k] + [Render(cs[k]), Render(cs[k + 1])] + w[k + 1..];
    forall j | 0 <= j < |cs| ensures RenderAll(cs)[j] == split[j] {
      if j < k {
        assert split[j] == w[j];
      } else if j > k + 1 {
        assert split[j] == w[j - 1];
        assert Render(cs[(j - 1) + 1]) == w[j - 1];
      }
    }
  }

  /**
   * Every visual produced by the image calls is such a URL: a post with a
   * generated visual exports a row of eight values under a seven-column header.
   */
  lemma GeneratedVisualSplitsRow(p: Post, m: string, d: string)
    requires p.visualUrl == Some(GeminiService.FormatDataUri(m, d))
    requires ',' !in m && ',' !in d && (d == [] || d[0] != '"')
    requires ReadsBack(Bare(p.day)) && '"' !in Join(p.hashtags, ' ')
    ensures |ReadRow(CsvRow(p))| == 8
  {
    var a := "data:" + m + ";base64";
    assert GeminiService.FormatDataUri(m, d) == a + "," + d;
    assert a == "data:" + m + ";base64";
    assert ',' !in "data:" && ',' !in ";base64";
    VisualUrlCommaSplitsRow(p, a, d);
  }

  /**
   * The day is written bare too: a day label holding a comma (such as
   * "Monday, Jan 1") is cut in two, and the row reads back with eight values.
   */
  lemma {:induction false} DayCommaSplitsRow(p: Post, a: string, b: string)
    requires p.day == a + "," + b
    requires ReadsBack(Bare(a)) && ReadsBack(Bare(b)) && ReadsBack(Bare(p.visualUrl.GetOr("")))
    requires '"' !in Join(p.hashtags, ' ')
    ensures ReadRow(CsvRow(p)) == [a, b] + Fields(p)[1..]
    ensures |ReadRow(CsvRow(p))| == 8
  {
    var cs := [Bare(a), Bare(b)] + RowCells(p)[1..];
    RowWithSplitDay(p, cs);
    ReadRenderedRow(cs);
    SplitDayTexts(p, a, b, cs);
  }

  lemma SplitDayTexts(p: Post, a: string, b: string, cs: seq<Cell>)
    requires cs == [Bare(a), Bare(b)] + RowCells(p)[1..]
    ensures Texts(cs) == [a, b] + Fields(p)[1..]
  {
    var f := [a, b] + Fields(p)[1..];
    forall k | 0 <= k < 8 ensures Texts(cs)[k] == f[k] {
      if k >= 2 {
        assert cs[k] == RowCells(p)[k - 1];
      }
    }
  }

  lemma RowWithSplitDay(p: Post, cs: seq<Cell>)
    requires |cs| == 8 && cs[2..] == RowCells(p)[1..] && cs[0].Bare? && cs[1].Bare?
    requires p.day == cs[0].text + "," + cs[1].text
    requires ReadsBack(cs[0]) && ReadsBack(cs[1]) && ReadsBack(Bare(p.visualUrl.GetOr("")))
    requires '"' !in Join(p.hashtags, ' ')
    ensures forall i :: 0 <= i < 8 ==> ReadsBack(cs[i])
    ensures Join(RenderAll(cs), ',') == CsvRow(p)
  {
    var w := WrittenCells(p);
    var rc := RowCells(p);
    NamesReadBack(p);
    RowCellsRender(p);
    HashtagCellRender(p);
    assert cs[..0] == rc[..0];
    assert w[0] == Render(cs[0]) + [','] + Render(cs[1]);
    SplitCellRow(rc, w, cs, 0);
  }

  /**
   * A hashtag holding a quote is not escaped: a quote followed by a comma
   * closes the hashtag cell early and the row reads back with eight values.
   */
  lemma {:induction false} HashtagQuoteSplitsRow(p: Post, a: string, b: string)
    requires p.hashtags == [a + "\"," + b]
    requires '"' !in a && ',' !in b && b != [] && b[0] != '"'
    requires ReadsBack(Bare(p.day)) && ReadsBack(Bare(p.visualUrl.GetOr("")))
    ensures |ReadRow(CsvRow(p))| == 8
    ensures ReadRow(CsvRow(p))[4] == a
  {
    var w := WrittenCells(p);
    var h := QuoteCell(a) + [','] + (b + "\"");
    HashtagCellText(p, a, b);
    var cs := RowCells(p)[..4] + [Quoted(a), Bare(b + "\"")] + RowCells(p)[5..];
    RowWithSplitHashtag(p, cs, h);
    ReadRenderedRow(cs);
  }

  lemma HashtagCellText(p: Post, a: string, b: string)
    requires p.hashtags == [a + "\"," + b] && '"' !in a
    ensures WrittenCells(p)[4] == QuoteCell(a) + [','] + (b + "\"")
  {
    assert Join(p.hashtags, ' ') == a + "\"," + b;
    assert DoubleQuotes(a) == a;
  }

  lemma RowWithSplitHashtag(p: Post, cs: seq<Cell>, h: string)
    requires |cs| == 8 && cs[..4] == RowCells(p)[..4] && cs[6..] == RowCells(p)[5..]
    requires cs[4].Quoted? && cs[5].Bare? && h == QuoteCell(cs[4].text) + [','] + cs[5].text
    requires WrittenCells(p)[4] == h
    requires ReadsBack(Bare(p.day)) && ReadsBack(Bare(p.visualUrl.GetOr("")))
    requires ReadsBack(cs[5])
    ensures forall i :: 0 <= i < 8 ==> ReadsBack(cs[i])
    ensures Join(RenderAll(cs), ',') == CsvRow(p)
  {
    var w := WrittenCells(p);
    var rc := RowCells(p);
    RowCellsReadBack(p);
    RowCellsRender(p);
    assert rc[6] == Bare(p.visualUrl.GetOr(""));
    SplitCellRow(rc, w, cs, 4);
  }

  lemma JoinSplitAt(w: seq<string>, k: nat, x: string, y: string, c: char)
    requires k < |w| && w[k] == x + [c] + y
    ensures Join(w, c) == Join(w[..k] + [x, y] + w[k + 1..], c)
  {
    assert w == w[..k] + [x + [c] + y] + w[k + 1..];
    JoinSplitPiece(w[..k], x, y, w[k + 1..], c);
  }

  /** The row as evidently intended: every cell quoted with its quotes doubled. */
  function CsvRowQuoted(p: Post): string {
    Join(RenderAll(QuotedCells(Fields(p))), ',')
  }

  function QuotedCells(ts: seq<string>): (r: seq<Cell>)
    ensures |r| == |ts|
    ensures forall i :: 0 <= i < |ts| ==> r[i] == Quoted(ts[i])
  {
    seq(|ts|, i requires 0 <= i < |ts| => Quoted(ts[i]))
  }

  /** The quoted row reads back as exactly the post's seven values, for every post. */
  lemma CsvRowQuotedReadsBack(p: Post)
    ensures ReadRow(CsvRowQuoted(p)) == Fields(p)
  {
    var cs := QuotedCells(Fields(p));
    ReadRenderedRow(cs);
    assert Texts(cs) == Fields(p);
  }

  /** The corrected rows of a post list, in order. */
  function CsvRowsQuoted(ps: seq<Post>): (r: seq<string>)
    ensures |r| == |ps|
    ensures forall i :: 0 <= i < |ps| ==> r[i] == CsvRowQuoted(ps[i])
  {
    seq(|ps|, i requires 0 <= i < |ps| => CsvRowQuoted(ps[i]))
  }

  /** The export as evidently intended: the same layout with every cell quoted. */
  function CsvContentQuoted(ps: seq<Post>): (r: Option<string>)
    ensures r.None? <==> ps == []
    ensures r.Some? ==> StartsWith(r.value, CsvPrefix)
  {
    if ps == [] then None else Some(CsvPrefix + Join([Header] + CsvRowsQuoted(ps), '\n'))
  }

  /** No value of the post holds a line break. */
  predicate FieldsSingleLine(p: Post) {
    forall k :: 0 <= k < 7 ==> '\n' !in Fields(p)[k]
  }

  /**
   * When no value holds a line break, the corrected export splits into the
   * header and one line per post, and each line reads back as exactly that
   * post's seven values.
   */
  lemma {:induction false} CsvQuotedReadsBack(ps: seq<Post>)
    requires ps != []
    requires forall i :: 0 <= i < |ps| ==> FieldsSingleLine(ps[i])
    ensures CsvContentQuoted(ps).Some?
    ensures var lines := Split(CsvContentQuoted(ps).value[|CsvPrefix|..], '\n');
            && |lines| == |ps| + 1 && lines[0] == Header
            && forall i :: 0 <= i < |ps| ==> ReadRow(lines[i + 1]) == Fields(ps[i])
  {
    var lines := [Header] + CsvRowsQuoted(ps);
    forall i | 0 <= i < |lines| ensures '\n' !in lines[i] {
      if i > 0 {
        QuotedRowOneLine(ps[i - 1]);
      } else {
        HeaderOneLine();
      }
    }
    SplitJoin(lines, '\n');
    assert CsvContentQuoted(ps).value[|CsvPrefix|..] == Join(lines, '\n');
    forall i | 0 <= i < |ps| ensures ReadRow(lines[i + 1]) == Fields(ps[i]) {
      CsvRowQuotedReadsBack(ps[i]);
    }
  }

  lemma QuotedRowOneLine(p: Post)
    requires FieldsSingleLine(p)
    ensures '\n' !in CsvRowQuoted(p)
  {
    var rs := RenderAll(QuotedCells(Fields(p)));
    forall k | 0 <= k < |rs| ensures '\n' !in rs[k] {
      DoubleQuotesExcludes(Fields(p)[k], '\n');
    }
    JoinExcludes(rs, ',', '\n');
  }
}

=== FILE: gemini_service.dfy ===
/**
 * The generation gateway: the string and sequence logic around the four
 * calls to the remote generative service. The service itself is an oracle:
 * each operation takes the remote reply as a parameter.
 */
module GeminiService {
  import opened Types
  import opened Strings

  // ------------------------------------------------------------ fixed strings

  const PlanFailure: string := "Failed to generate content. Please try again."
  const NoImageGenerated: string := "No image generated"
  const NoEditedImage: string := "No edited image returned"
  const ConsultFallback: string := "I couldn't generate a response at this time."
  const ConsultApology: string :=
    "I apologize, but I'm having trouble connecting to the marketing database right now."
  const ReferenceSuffix: string :=
    " Incorporate the visual style and elements of the provided reference image/logo naturally into the composition."
  const DefaultMime: string := "image/png"

  const ConsultInstruction: string :=
    "\n    You are a world-class Digital Marketing Consultant and Growth Hacker. "
    + "\n    CRITICAL INSTRUCTION: Provide extremely concise, high-impact advice. "
    + "\n    - Do NOT write blog posts or long introductions."
    + "\n    - Get straight to the point immediately."
    + "\n    - Use bullet points for lists."
    + "\n    - Keep responses under 100 words unless explicitly asked for a detailed strategy."
    + "\n    - Be professional, sharp, and direct."
    + "\n  "

  // ------------------------------------------------------------------ data URIs

  /** `uri.split(',')[1] || uri`: the payload of a data URI, or the whole input. */
  function PayloadOf(uri: string): (r: string)
    ensures r == uri || (r != [] && ',' !in r)
  {
    var parts := Split(uri, ',');
    if |parts| >= 2 && parts[1] != [] then parts[1] else uri
  }

  /** `uri.split(';')[0].split(':')[1] || 'image/png'`: the media type. */
  function MimeOf(uri: string): (r: string)
    ensures r == DefaultMime || (r != [] && ':' !in r)
  {
    var parts := Split(Split(uri, ';')[0], ':');
    if |parts| >= 2 && parts[1] != [] then parts[1] else DefaultMime
  }

  /** The data URI returned for an inline image part. */
  function FormatDataUri(mime: string, data: string): (r: string)
    ensures |r| == |mime| + |data| + 13
    ensures StartsWith(r, "data:")
    ensures r[|r| - |data|..] == data
  {
    "data:" + mime + ";base64," + data
  }

  /** Without a comma the payload is the whole input. */
  lemma PayloadWithoutComma(uri: string)
    requires ',' !in uri
    ensures PayloadOf(uri) == uri
  {
    SplitNoSep(uri, ',');
  }

  /**
   * With a comma, the payload is the text after the first comma up to the
   * next comma or the end, unless that text is empty.
   */
  lemma PayloadAfterFirstComma(a: string, b: string, t: string)
    requires ',' !in a && ',' !in b
    requires t == [] || t[0] == ','
    ensures PayloadOf(a + "," + b + t) == if b != [] then b else a + "," + b + t
  {
    SplitSecond(a, b, t, ',');
  }

  /** Without a ':' before the first ';' the media type falls back to PNG. */
  lemma MimeWithoutColon(h: string, t: string)
    requires ';' !in h && ':' !in h
    requires t == [] || t[0] == ';'
    ensures MimeOf(h + t) == DefaultMime
  {
    SplitFirst(h, t, ';');
    SplitNoSep(h, ':');
  }

  /**
   * The media type is the text between the first and the second ':' of the
   * part before the first ';', unless that text is empty.
   */
  lemma MimeAfterFirstColon(a: string, b: string, u: string, t: string)
    requires ':' !in a && ':' !in b && ';' !in a + ":" + b + u
    requires u == [] || u[0] == ':'
    requires t == [] || t[0] == ';'
    ensures MimeOf(a + ":" + b + u + t) == if b != [] then b else DefaultMime
  {
    SplitFirst(a + ":" + b + u, t, ';');
    SplitSecond(a, b, u, ':');
  }

  /**
   * Parsing a formatted data URI gives back its media type and payload, as
   * long as neither contains a separator the parser splits on.
   */
  lemma {:induction false} DataUriRoundTrip(m: string, d: string)
    requires m != [] && ';' !in m && ':' !in m && ',' !in m
    requires d != [] && ',' !in d
    ensures MimeOf(FormatDataUri(m, d)) == m
    ensures PayloadOf(FormatDataUri(m, d)) == d
  {
    MimeRoundTrip(m, d);
    PayloadRoundTrip(m, d);
  }

  lemma MimeRoundTrip(m: string, d: string)
    requires m != [] && ';' !in m && ':' !in m
    ensures MimeOf(FormatDataUri(m, d)) == m
  {
    var uri := FormatDataUri(m, d);
    assert uri == ("data:" + m) + (";" + "base64," + d);
    SplitFirst("data:" + m, ";" + "base64," + d, ';');
    assert "data:" + m == "data" + ":" + m + [];
    SplitSecond("data", m, [], ':');
  }

  lemma PayloadRoundTrip(m: string, d: string)
    requires ',' !in m && d != [] && ',' !in d
    ensures PayloadOf(FormatDataUri(m, d)) == d
  {
    var uri := FormatDataUri(m, d);
    assert uri == ("data:" + m + ";base64") + "," + d + [];
    PayloadAfterFirstComma("data:" + m + ";base64", d, []);
  }

  /** An empty media type or payload falls back: the round trip needs both. */
  lemma DataUriFallbacks(d: string)
    requires d != [] && ',' !in d
    ensures MimeOf(FormatDataUri("", d)) == DefaultMime
    ensures PayloadOf(FormatDataUri("", "")) == FormatDataUri("", "")
  {
    EmptyMimeFallback(d);
    EmptyPayloadFallback();
  }

  lemma EmptyMimeFallback(d: string)
    ensures MimeOf(FormatDataUri("", d)) == DefaultMime
  {
    var uri := FormatDataUri("", d);
    assert uri == "data:" + (";" + "base64," + d);
    SplitFirst("data:", ";" + "base64," + d, ';');
    assert "data:" == "data" + ":" + [] + [];
    SplitSecond("data", [], [], ':');
  }

  lemma EmptyPayloadFallback()
    ensures PayloadOf(FormatDataUri("", "")) == FormatDataUri("", "")
  {
    var e := FormatDataUri("", "");
    assert e == "data:;base64" + "," + [] + [];
    SplitSecond("data:;base64", [], [], ',');
  }

  // ----------------------------------------------------------- request parts

  datatype RequestPart = TextPart(text: string) | InlinePart(mimeType: string, data: string)

  /** The inline part built from a data URI. */
  function InlineFromDataUri(uri: string): RequestPart {
    InlinePart(MimeOf(uri), PayloadOf(uri))
  }

  /**
   * The parts of a `generateImage` request. A truthy reference image adds the
   * incorporation suffix to the prompt and follows it as an inline part.
   */
  function ImageRequestParts(prompt: string, reference: Option<string>): (r: seq<RequestPart>)
    ensures |r| >= 1 && r[0].TextPart? && StartsWith(r[0].text, prompt)
    ensures !Truthy(reference) ==> r == [TextPart(prompt)]
    ensures Truthy(reference) ==> |r| == 2 && r[0].TextPart? && r[1].InlinePart?
    ensures Truthy(reference) ==> |r[0].text| == |prompt| + |ReferenceSuffix|
    ensures Truthy(reference) ==> r[0].text[..|prompt|] == prompt && r[0].text[|prompt|..] == ReferenceSuffix
    ensures Truthy(reference) ==> r[1].data == PayloadOf(reference.value) && r[1].mimeType == MimeOf(reference.value)
  {
    if Truthy(reference) then [TextPart(prompt + ReferenceSuffix), InlineFromDataUri(reference.value)]
    else [TextPart(prompt)]
  }

  /** The parts of an `editImage` request: the image first, then the instruction. */
  function EditRequestParts(image: string, instruction: string): (r: seq<RequestPart>)
    ensures |r| == 2 && r[0].InlinePart? && r[1] == TextPart(instruction)
    ensures r[0].mimeType == MimeOf(image) && r[0].data == PayloadOf(image)
  {
    [InlineFromDataUri(image), TextPart(instruction)]
  }

  /** A reference image built by FormatDataUri is sent with its own type and payload. */
  lemma ReferenceImageForwarded(prompt: string, m: string, d: string)
    requires m != [] && ';' !in m && ':' !in m && ',' !in m
    requires d != [] && ',' !in d
    ensures ImageRequestParts(prompt, Some(FormatDataUri(m, d)))[1] == InlinePart(m, d)
  {
    DataUriRoundTrip(m, d);
  }

  // ---------------------------------------------------------- image responses

  datatype InlineData = InlineData(mimeType: string, data: string)
  datatype ResponsePart = ResponsePart(text: Option<string>, inlineData: Option<InlineData>)
  datatype Candidate = Candidate(parts: Option<seq<ResponsePart>>)
  datatype Response = Response(candidates: seq<Candidate>)

  /** `response.candidates?.[0]?.content?.parts || []`. */
  function FirstCandidateParts(resp: Response): seq<ResponsePart> {
    if |resp.candidates| > 0 && resp.candidates[0].parts.Some? then resp.candidates[0].parts.value
    else []
  }

  /**
   * The loop over the first candidate's parts: the first part carrying inline
   * data is returned as a data URI; with none, the call fails with `err`.
   */
  method ExtractImage(resp: Response, err: string) returns (r: Result<string>)
    ensures var ps := FirstCandidateParts(resp);
            r.Failure? <==> forall i :: 0 <= i < |ps| ==> ps[i].inlineData.None?
    ensures r.Failure? ==> r.error == err
    ensures var ps := FirstCandidateParts(resp);
            r.Success? ==>
              exists i :: 0 <= i < |ps| && ps[i].inlineData.Some?
                && (forall j :: 0 <= j < i ==> ps[j].inlineData.None?)
                && r.value == FormatDataUri(ps[i].inlineData.value.mimeType, ps[i].inlineData.value.data)
  {
    var ps := FirstCandidateParts(resp);
    var k := 0;
    while k < |ps|
      invariant 0 <= k <= |ps|
      invariant forall j :: 0 <= j < k ==> ps[j].inlineData.None?
    {
      if ps[k].inlineData.Some? {
        var inline := ps[k].inlineData.value;
        return Success(FormatDataUri(inline.mimeType, inline.data));
      }
      k := k + 1;
    }
    return Failure(err);
  }

  /**
   * `generateImage` around the remote call: the request it sends, and the
   * first inline image of the reply, or the fixed error when there is none.
   */
  method GenerateImage(prompt: string, reference: Option<string>, resp: Response)
    returns (parts: seq<RequestPart>, r: Result<string>)
    ensures parts == ImageRequestParts(prompt, reference)
    ensures var ps := FirstCandidateParts(resp);
            r.Failure? <==> forall i :: 0 <= i < |ps| ==> ps[i].inlineData.None?
    ensures r.Failure? ==> r.error == NoImageGenerated
    ensures var ps := FirstCandidateParts(resp);
            r.Success? ==>
              exists i :: 0 <= i < |ps| && ps[i].inlineData.Some?
                && (forall j :: 0 <= j < i ==> ps[j].inlineData.None?)
                && r.value == FormatDataUri(ps[i].inlineData.value.mimeType, ps[i].inlineData.value.data)
  {
    parts := ImageRequestParts(prompt, reference);
    r := ExtractImage(resp, NoImageGenerated);
  }

  /**
   * `editImage` around the remote call: the request it sends, and the first
   * inline image of the reply, or the fixed error when there is none.
   */
  method EditImage(image: string, instruction: string, resp: Response)
    returns (parts: seq<RequestPart>, r: Result<string>)
    ensures parts == EditRequestParts(image, instruction)
    ensures var ps := FirstCandidateParts(resp);
            r.Failure? <==> forall i :: 0 <= i < |ps| ==> ps[i].inlineData.None?
    ensures r.Failure? ==> r.error == NoEditedImage
    ensures var ps := FirstCandidateParts(resp);
            r.Success? ==>
              exists i :: 0 <= i < |ps| && ps[i].inlineData.Some?
                && (forall j :: 0 <= j < i ==> ps[j].inlineData.None?)
                && r.value == FormatDataUri(ps[i].inlineData.value.mimeType, ps[i].inlineData.value.data)
  {
    parts := EditRequestParts(image, instruction);
    r := ExtractImage(resp, NoEditedImage);
  }

  // --------------------------------------------------------- plan generation

  /** What the remote plan call produced. */
  datatype PlanReply =
    | CallFailed                              // the request raised
    | EmptyText                               // the reply had no text
    | Unparseable                             // JSON.parse raised
    | Parsed(items: seq<GeneratedPostData>)   // the parsed array

  /**
   * `generateCampaignPosts` after the call: no text gives the empty plan,
   * every failure the one fixed error.
   */
  function PlanResult(reply: PlanReply): (r: Result<seq<GeneratedPostData>>)
    ensures reply.EmptyText? ==> r == Success([])
    ensures reply.Parsed? ==> r == Success(reply.items)
    ensures (reply.CallFailed? || reply.Unparseable?) ==> r == Failure(PlanFailure)
  {
    match reply
    case CallFailed => Failure(PlanFailure)
    case Unparseable => Failure(PlanFailure)
    case EmptyText => Success([])
    case Parsed(items) => Success(items)
  }

  // ------------------------------------------------------------ consultation

  /** The campaign block appended to the instruction when a campaign is selected. */
  function CampaignContext(c: Campaign): string {
    "\n      Context for this session:"
    + "\n      - Company: " + c.companyName
    + "\n      - Niche: " + c.niche
    + "\n      - Target Audience: " + c.targetAudience
    + "\n      - Brand Voice: " + c.brandVoice
    + "\n    "
  }

  /** The fixed instruction, extended with the campaign block iff a campaign is given. */
  function SystemInstruction(campaign: Option<Campaign>): (r: string)
    ensures |r| >= |ConsultInstruction|
    ensures r[..|ConsultInstruction|] == ConsultInstruction
    ensures campaign.None? <==> |r| == |ConsultInstruction|
    ensures campaign.Some? ==> r[|ConsultInstruction|..] == CampaignContext(campaign.value)
  {
    if campaign.Some? then ConsultInstruction + CampaignContext(campaign.value)
    else ConsultInstruction
  }

  datatype Turn = Turn(role: Role, text: string)
  datatype Content = Content(role: Role, parts: seq<RequestPart>)

  /** Each history turn becomes one content entry with one text part, in order. */
  function HistoryContents(history: seq<Turn>): (r: seq<Content>)
    ensures |r| == |history|
    ensures forall i :: 0 <= i < |history| ==>
              r[i].role == history[i].role && r[i].parts == [TextPart(history[i].text)]
  {
    if history == [] then []
    else [Content(history[0].role, [TextPart(history[0].text)])] + HistoryContents(history[1..])
  }

  /**
   * The reply of `consultMarketingExpert`: `reply` is None when the call
   * raised, otherwise the response's text field (itself possibly absent).
   * Never fails.
   */
  function ConsultReply(reply: Option<Option<string>>): (r: string)
    ensures r != []
    ensures reply.None? ==> r == ConsultApology
    ensures reply.Some? && !Truthy(reply.value) ==> r == ConsultFallback
    ensures reply.Some? && Truthy(reply.value) ==> r == reply.value.value
  {
    match reply
    case None => ConsultApology
    case Some(text) => if Truthy(text) then text.value else ConsultFallback
  }
}

=== FILE: layout.dfy ===
/**
 * The page frame: the sidebar's navigation handler and the two panels it
 * opens and closes (the mobile sidebar and the consultant chat).
 */
module Layout {
  import opened Types
  import opened AppContext
  import App

  datatype Panels = Panels(sidebarOpen: bool, chatOpen: bool)

  const InitialPanels: Panels := Panels(false, false)

  /** The two destinations of the sidebar links. */
  datatype NavTarget = ToDashboard | ToNewCampaign

  function TargetView(t: NavTarget): (v: ViewState)
    ensures v == Dashboard <==> t == ToDashboard
    ensures v == NewCampaign <==> t == ToNewCampaign
  {
    match t
    case ToDashboard => Dashboard
    case ToNewCampaign => NewCampaign
  }

  /**
   * `handleNav`: going to the dashboard drops the selection; going to the
   * new-campaign form keeps it. Either way the view changes and the sidebar
   * closes, and the chat panel is left alone.
   */
  function HandleNav(s: AppState, ps: Panels, t: NavTarget): (r: (AppState, Panels))
    ensures r.0.view == TargetView(t)
    ensures t == ToDashboard ==> r.0.selectedCampaign.None?
    ensures t == ToNewCampaign ==> r.0.selectedCampaign == s.selectedCampaign
    ensures r.0.campaigns == s.campaigns && r.0.posts == s.posts
    ensures !r.1.sidebarOpen && r.1.chatOpen == ps.chatOpen
  {
    var s1 := if t == ToDashboard then SetSelectedCampaign(s, None) else s;
    (SetView(s1, TargetView(t)), ps.(sidebarOpen := false))
  }

  /**
   * Both sidebar links lead to the screen they name, and in both cases a
   * later form submit creates a campaign rather than editing one.
   */
  lemma {:induction false} NavShowsTarget(s: AppState, ps: Panels, t: NavTarget)
    ensures var v := HandleNav(s, ps, t).0.view;
            && (t == ToDashboard ==> App.RenderView(v) == App.DashboardScreen)
            && (t == ToNewCampaign ==> App.RenderView(v) == App.FormScreen(false))
  {
    var v := HandleNav(s, ps, t).0.view;
    assert v == TargetView(t);
  }

  /** Navigating twice to the same place is the same as navigating once. */
  lemma NavIdempotent(s: AppState, ps: Panels, t: NavTarget)
    ensures var r := HandleNav(s, ps, t);
            HandleNav(r.0, r.1, t) == r
  {
  }

  /** The menu button flips the sidebar. */
  function ToggleSidebar(ps: Panels): (ps': Panels)
    ensures ps'.sidebarOpen != ps.sidebarOpen && ps'.chatOpen == ps.chatOpen
  {
    ps.(sidebarOpen := !ps.sidebarOpen)
  }

  /** Tapping the overlay closes the sidebar. */
  function CloseSidebar(ps: Panels): (ps': Panels)
    ensures !ps'.sidebarOpen && ps'.chatOpen == ps.chatOpen
  {
    ps.(sidebarOpen := false)
  }

  /** Either chat button opens the panel; its close button shuts it. */
  function SetChatOpen(ps: Panels, open: bool): (ps': Panels)
    ensures ps'.chatOpen == open && ps'.sidebarOpen == ps.sidebarOpen
  {
    ps.(chatOpen := open)
  }

  /** Toggling twice restores the panels. */
  lemma ToggleTwice(ps: Panels)
    ensures ToggleSidebar(ToggleSidebar(ps)) == ps
  {
  }
}

=== FILE: post_planner.dfy ===
/**
 * The content planner: the generated preview that is not yet committed, the
 * list it displays, and the handlers that generate a plan, edit prompts,
 * synthesize or edit visuals and commit the preview to the store. Remote
 * results, fresh ids and the selected platform are parameters.
 */
module PostPlanner {
  import opened Types
  import opened Strings
  import opened AppContext
  import opened GeminiService
  import opened CsvExport

  /** The planner's own state beside the store. */
  datatype PlannerState = PlannerState(
    generatedPosts: seq<Post>,             // the uncommitted preview
    editPrompt: string,
    editingVisualId: Option<string>,
    generatingVisualId: Option<string>,
    loading: bool)

  /** The store and the planner together: what a planner handler changes. */
  datatype Session = Session(app: AppState, planner: PlannerState)

  const InitialPlanner: PlannerState := PlannerState([], "", None, None, false)

  /** The preview when there is one, else the selected campaign's stored posts. */
  function DisplayPosts(app: AppState, generated: seq<Post>): (r: seq<Post>)
    ensures |generated| > 0 ==> r == generated
    ensures |generated| == 0 && app.selectedCampaign.Some? ==>
              r == PostsOf(app.posts, app.selectedCampaign.value.id)
    ensures |generated| == 0 && app.selectedCampaign.None? ==> r == []
  {
    if |generated| > 0 then generated
    else if app.selectedCampaign.Some? then PostsOf(app.posts, app.selectedCampaign.value.id)
    else []
  }

  /**
   * A freshly mounted planner has no preview, no edit or generation in
   * flight, and shows the selected campaign's stored posts.
   */
  lemma InitialPlannerShowsStored(app: AppState)
    ensures InitialPlanner.editingVisualId.None? && InitialPlanner.generatingVisualId.None?
    ensures !InitialPlanner.loading && InitialPlanner.editPrompt == []
    ensures DisplayPosts(app, InitialPlanner.generatedPosts)
            == if app.selectedCampaign.Some? then PostsOf(app.posts, app.selectedCampaign.value.id) else []
  {
  }

  // --------------------------------------------------------- plan generation

  /** A post seen as generator output: the fields the generator supplies. */
  function AsGenerated(p: Post): GeneratedPostData {
    GeneratedPostData(p.day, p.caption, p.hashtags, p.visualDescription, Some(p.visualType), p.videoScript)
  }

  /** One draft: a fresh id, status draft, the requested platform, image by default. */
  function MakeDraft(d: GeneratedPostData, id: string, platform: SocialPlatform): Post {
    Post(id, d.day, platform, d.caption, d.hashtags, d.visualDescription,
         d.visualType.GetOr(Image), None, d.videoScript, Draft)
  }

  /**
   * The drafts built from a generated plan, `newId(i)` being the i-th fresh
   * id: one post per item, in order, carrying the item's fields.
   */
  function Drafts(data: seq<GeneratedPostData>, newId: nat -> string, platform: SocialPlatform): (r: seq<Post>)
    ensures |r| == |data|
    ensures forall i :: 0 <= i < |data| ==>
              && r[i].id == newId(i) && r[i].status == Draft && r[i].platform == platform
              && r[i].visualUrl.None?
              && AsGenerated(r[i]) == data[i].(visualType := Some(data[i].visualType.GetOr(Image)))
  {
    seq(|data|, i requires 0 <= i < |data| => MakeDraft(data[i], newId(i), platform))
  }

  /** Distinct fresh ids give drafts with distinct ids. */
  lemma DraftIdsDistinct(data: seq<GeneratedPostData>, newId: nat -> string, platform: SocialPlatform)
    requires forall i, j :: 0 <= i < j < |data| ==> newId(i) != newId(j)
    ensures var r := Drafts(data, newId, platform);
            forall i, j :: 0 <= i < j < |r| ==> r[i].id != r[j].id
  {
  }

  /**
   * `handleGenerateSchedule`: without a selected campaign nothing happens;
   * a successful call replaces the preview with the drafts (the empty plan
   * included); a failure keeps the preview. The store is never written.
   */
  function GenerateSchedule(s: Session, platform: SocialPlatform, reply: PlanReply, newId: nat -> string): (s': Session)
    ensures s'.app == s.app
    ensures s.app.selectedCampaign.None? ==> s' == s
    ensures s.app.selectedCampaign.Some? && reply.Parsed? ==>
              s'.planner == s.planner.(generatedPosts := Drafts(reply.items, newId, platform), loading := false)
    ensures s.app.selectedCampaign.Some? && reply.EmptyText? ==>
              s'.planner == s.planner.(generatedPosts := [], loading := false)
    ensures s.app.selectedCampaign.Some? && (reply.CallFailed? || reply.Unparseable?) ==>
              s'.planner == s.planner.(loading := false)
  {
    if s.app.selectedCampaign.None? then s
    else
      match PlanResult(reply)
      case Success(items) => s.(planner := s.planner.(generatedPosts := Drafts(items, newId, platform), loading := false))
      case Failure(_) => s.(planner := s.planner.(loading := false))
  }

  // ----------------------------------------------------------- prompt edits

  /** `prev.map(p => p.id === id ? { ...p, visualDescription: prompt } : p)`. */
  function UpdatePrompt(ps: seq<Post>, id: string, prompt: string): (r: seq<Post>)
    ensures |r| == |ps|
    ensures forall i :: 0 <= i < |ps| ==>
              && r[i].visualDescription == (if ps[i].id == id then prompt else ps[i].visualDescription)
              && r[i].(visualDescription := ps[i].visualDescription) == ps[i]
  {
    seq(|ps|, i requires 0 <= i < |ps| =>
      if ps[i].id == id then ps[i].(visualDescription := prompt) else ps[i])
  }

  function HandleUpdatePrompt(pl: PlannerState, id: string, prompt: string): (pl': PlannerState)
    ensures pl'.generatedPosts == UpdatePrompt(pl.generatedPosts, id, prompt)
    ensures pl'.(generatedPosts := pl.generatedPosts) == pl
  {
    pl.(generatedPosts := UpdatePrompt(pl.generatedPosts, id, prompt))
  }

  /** An edit of an id nobody has changes nothing. */
  lemma UpdatePromptAbsent(ps: seq<Post>, id: string, prompt: string)
    requires forall i :: 0 <= i < |ps| ==> ps[i].id != id
    ensures UpdatePrompt(ps, id, prompt) == ps
  {
  }

  // ------------------------------------------------------------ visual URLs

  /** `list.map(p => p.id === id ? { ...p, visualUrl: url } : p)`. */
  function SetVisualUrl(ps: seq<Post>, id: string, url: string): (r: seq<Post>)
    ensures |r| == |ps|
    ensures forall i :: 0 <= i < |ps| ==>
              && r[i].visualUrl == (if ps[i].id == id then Some(url) else ps[i].visualUrl)
              && r[i].(visualUrl := ps[i].visualUrl) == ps[i]
  {
    seq(|ps|, i requires 0 <= i < |ps| =>
      if ps[i].id == id then ps[i].(visualUrl := Some(url)) else ps[i])
  }

  /** The request sent for a visual: the prompt, with the selected logo as reference. */
  function VisualRequest(app: AppState, post: Post): (r: seq<RequestPart>)
    ensures |r| >= 1 && r[0].TextPart? && StartsWith(r[0].text, post.visualDescription)
    ensures (app.selectedCampaign.Some? && Truthy(app.selectedCampaign.value.logo)) <==> |r| == 2
    ensures |r| == 1 ==> r == [TextPart(post.visualDescription)]
    ensures |r| == 2 ==>
              var logo := app.selectedCampaign.value.logo.value;
              && r[0] == TextPart(post.visualDescription + ReferenceSuffix)
              && r[1] == InlinePart(MimeOf(logo), PayloadOf(logo))
  {
    ImageRequestParts(post.visualDescription,
                      if app.selectedCampaign.Some? then app.selectedCampaign.value.logo else None)
  }

  /**
   * `handleGenerateVisual` as written, given the generated data URI or the
   * failure. Video posts are skipped. On success the id-matched post of the
   * displayed list gets the URL; with a preview the preview is replaced,
   * otherwise the whole updated list is handed to `savePosts`, which appends.
   */
  function GenerateVisual(s: Session, post: Post, url: Result<string>): (s': Session)
    ensures post.visualType == Video ==> s' == s
    ensures post.visualType == Image ==>
              s'.planner.generatingVisualId.None? && s'.planner.editPrompt == s.planner.editPrompt
    ensures url.Failure? ==> s'.app == s.app
    ensures post.visualType == Image && (url.Failure? || |s.planner.generatedPosts| == 0) ==>
              s'.planner == s.planner.(generatingVisualId := None)
    ensures post.visualType == Image && url.Success? && |s.planner.generatedPosts| == 0
            && s.app.selectedCampaign.None? ==>
              s'.app == s.app
    ensures post.visualType == Image && url.Success? && |s.planner.generatedPosts| > 0 ==>
              s'.app == s.app
              && s'.planner == s.planner.(generatingVisualId := None,
                                          generatedPosts := SetVisualUrl(s.planner.generatedPosts, post.id, url.value))
    ensures post.visualType == Image && url.Success? && |s.planner.generatedPosts| == 0
            && s.app.selectedCampaign.Some? ==>
              var cid := s.app.selectedCampaign.value.id;
              var prior := PostsOf(s.app.posts, cid);
              s'.app == SavePosts(s.app, cid, SetVisualUrl(prior, post.id, url.value))
              && s'.planner.generatedPosts == []
  {
    if post.visualType == Video then s
    else
      var done := s.planner.(generatingVisualId := None);
      match url
      case Failure(_) => s.(planner := done)
      case Success(u) =>
        var updated := SetVisualUrl(DisplayPosts(s.app, s.planner.generatedPosts), post.id, u);
        if |s.planner.generatedPosts| > 0 then Session(s.app, done.(generatedPosts := updated))
        else if s.app.selectedCampaign.None? then Session(s.app, done)   // `selectedCampaign!` raises; caught
        else Session(SavePosts(s.app, s.app.selectedCampaign.value.id, updated), done)
  }

  /**
   * The write-back as written doubles the committed list: the stored posts
   * become the prior list followed by its updated copy.
   */
  lemma VisualWriteBackDoubles(s: Session, post: Post, u: string)
    requires post.visualType == Image && |s.planner.generatedPosts| == 0
    requires s.app.selectedCampaign.Some?
    ensures var cid := s.app.selectedCampaign.value.id;
            var prior := PostsOf(s.app.posts, cid);
            var stored := GenerateVisual(s, post, Success(u)).app.posts[cid];
            && |stored| == 2 * |prior|
            && stored[..|prior|] == prior
            && stored[|prior|..] == SetVisualUrl(prior, post.id, u)
  {
  }

  /** A committed post gets a visual, then the list holds it twice. */
  lemma VisualWriteBackDuplicates(s: Session, post: Post, u: string)
    requires post.visualType == Image && |s.planner.generatedPosts| == 0
    requires s.app.selectedCampaign.Some?
    requires PostsOf(s.app.posts, s.app.selectedCampaign.value.id) == [post]
    ensures var cid := s.app.selectedCampaign.value.id;
            GenerateVisual(s, post, Success(u)).app.posts[cid] == [post, post.(visualUrl := Some(u))]
  {
    var cid := s.app.selectedCampaign.value.id;
    var stored := GenerateVisual(s, post, Success(u)).app.posts[cid];
    assert stored[..1] == [post];
    assert stored[1..] == SetVisualUrl([post], post.id, u);
  }

  /**
   * The write-back as evidently intended: the stored list is replaced by its
   * updated copy instead of being appended to.
   */
  function GenerateVisualReplacing(s: Session, post: Post, url: Result<string>): (s': Session)
    ensures post.visualType == Video || url.Failure? || |s.planner.generatedPosts| > 0
            || s.app.selectedCampaign.None? ==>
              s'.app == s.app
    ensures post.visualType == Image && url.Success? && |s.planner.generatedPosts| == 0
            && s.app.selectedCampaign.Some? ==>
              var cid := s.app.selectedCampaign.value.id;
              s'.app == s.app.(posts := s.app.posts[cid := SetVisualUrl(PostsOf(s.app.posts, cid), post.id, url.value)])
    ensures post.visualType == Image && url.Success? && |s.planner.generatedPosts| == 0
            && s.app.selectedCampaign.Some? ==>
              var cid := s.app.selectedCampaign.value.id;
              var prior := PostsOf(s.app.posts, cid);
              && cid in s'.app.posts
              && |s'.app.posts[cid]| == |prior|
              && (forall i :: 0 <= i < |prior| ==>
                    s'.app.posts[cid][i] == (if prior[i].id == post.id then prior[i].(visualUrl := Some(url.value)) else prior[i]))
              && (forall k :: k in s.app.posts && k != cid ==> k in s'.app.posts && s'.app.posts[k] == s.app.posts[k])
    ensures s'.planner == GenerateVisual(s, post, url).planner
  {
    if post.visualType == Video then s
    else
      var done := s.planner.(generatingVisualId := None);
      match url
      case Failure(_) => s.(planner := done)
      case Success(u) =>
        var updated := SetVisualUrl(DisplayPosts(s.app, s.planner.generatedPosts), post.id, u);
        if |s.planner.generatedPosts| > 0 then Session(s.app, done.(generatedPosts := updated))
        else if s.app.selectedCampaign.None? then Session(s.app, done)
        else
          var cid := s.app.selectedCampaign.value.id;
          Session(s.app.(posts := s.app.posts[cid := updated]), done)
  }

  /** The corrected write-back keeps the committed list's length and ids. */
  lemma ReplacingKeepsCommittedList(s: Session, post: Post, u: string)
    requires post.visualType == Image && |s.planner.generatedPosts| == 0
    requires s.app.selectedCampaign.Some?
    ensures var cid := s.app.selectedCampaign.value.id;
            var prior := PostsOf(s.app.posts, cid);
            var stored := GenerateVisualReplacing(s, post, Success(u)).app.posts[cid];
            |stored| == |prior| && forall i :: 0 <= i < |prior| ==> stored[i].id == prior[i].id
  {
  }

  // ------------------------------------------------------------ visual edits

  /** The edit bar opens for one post with an empty prompt. */
  function StartEditVisual(pl: PlannerState, id: string): (pl': PlannerState)
    ensures pl'.editingVisualId == Some(id) && pl'.editPrompt == ""
    ensures pl'.(editingVisualId := pl.editingVisualId, editPrompt := pl.editPrompt) == pl
  {
    pl.(editingVisualId := Some(id), editPrompt := "")
  }

  /**
   * `handleEditVisual`, given the edited data URI or the failure. Nothing
   * happens without a visual or without an edit prompt. On success the
   * updated displayed list always becomes the preview, even for committed
   * posts, and the edit bar is closed. The store is never written.
   */
  function EditVisual(s: Session, post: Post, url: Result<string>): (s': Session)
    ensures s'.app == s.app
    ensures !Truthy(post.visualUrl) || s.planner.editPrompt == "" ==> s' == s
    ensures Truthy(post.visualUrl) && s.planner.editPrompt != "" ==> s'.planner.generatingVisualId.None?
    ensures Truthy(post.visualUrl) && s.planner.editPrompt != "" && url.Failure? ==>
              s'.planner == s.planner.(generatingVisualId := None)
    ensures Truthy(post.visualUrl) && s.planner.editPrompt != "" && url.Success? ==>
              && s'.planner.generatedPosts ==
                   SetVisualUrl(DisplayPosts(s.app, s.planner.generatedPosts), post.id, url.value)
              && s'.planner == s.planner.(generatedPosts := s'.planner.generatedPosts, editPrompt := "",
                                          editingVisualId := None, generatingVisualId := None)
  {
    if !Truthy(post.visualUrl) || s.planner.editPrompt == "" then s
    else
      match url
      case Failure(_) => s.(planner := s.planner.(generatingVisualId := None))
      case Success(u) =>
        var updated := SetVisualUrl(DisplayPosts(s.app, s.planner.generatedPosts), post.id, u);
        s.(planner := s.planner.(generatedPosts := updated, editPrompt := "",
                                 editingVisualId := None, generatingVisualId := None))
  }

  /**
   * A successful edit changes what the planner displays in exactly one way:
   * the edited post's visual. Length, order and every other field stay.
   */
  lemma {:induction false} EditVisualDisplay(s: Session, post: Post, u: string)
    requires Truthy(post.visualUrl) && s.planner.editPrompt != ""
    ensures var s' := EditVisual(s, post, Success(u));
            DisplayPosts(s'.app, s'.planner.generatedPosts) ==
              SetVisualUrl(DisplayPosts(s.app, s.planner.generatedPosts), post.id, u)
  {
  }

  /**
   * Editing a committed post's visual moves the whole committed list into the
   * preview, so saving afterwards appends a second, edited copy of it.
   */
  lemma {:induction false} EditCommittedThenSave(s: Session, post: Post, u: string)
    requires Truthy(post.visualUrl) && s.planner.editPrompt != ""
    requires |s.planner.generatedPosts| == 0 && s.app.selectedCampaign.Some?
    requires PostsOf(s.app.posts, s.app.selectedCampaign.value.id) != []
    ensures var cid := s.app.selectedCampaign.value.id;
            var prior := PostsOf(s.app.posts, cid);
            Save(EditVisual(s, post, Success(u))).app.posts[cid] == prior + SetVisualUrl(prior, post.id, u)
  {
  }

  /** The request sent for an edit: the current visual first, then the edit prompt. */
  function EditRequest(pl: PlannerState, post: Post): (r: seq<RequestPart>)
    requires Truthy(post.visualUrl)
    ensures |r| == 2 && r[1] == TextPart(pl.editPrompt)
    ensures r[0] == InlinePart(MimeOf(post.visualUrl.value), PayloadOf(post.visualUrl.value))
  {
    EditRequestParts(post.visualUrl.value, pl.editPrompt)
  }

  // ------------------------------------------------------------------- commit

  /**
   * `handleSave`: with a selected campaign and a non-empty preview, the
   * preview is appended to the campaign's stored posts and cleared.
   */
  function Save(s: Session): (s': Session)
    ensures !(s.app.selectedCampaign.Some? && |s.planner.generatedPosts| > 0) ==> s' == s
    ensures s.app.selectedCampaign.Some? && |s.planner.generatedPosts| > 0 ==>
              var cid := s.app.selectedCampaign.value.id;
              && s'.app == SavePosts(s.app, cid, s.planner.generatedPosts)
              && s'.planner == s.planner.(generatedPosts := [])
  {
    if s.app.selectedCampaign.Some? && |s.planner.generatedPosts| > 0 then
      Session(SavePosts(s.app, s.app.selectedCampaign.value.id, s.planner.generatedPosts),
              s.planner.(generatedPosts := []))
    else s
  }

  /** After a commit the planner displays the prior posts followed by the preview. */
  lemma SaveThenDisplay(s: Session)
    requires s.app.selectedCampaign.Some? && |s.planner.generatedPosts| > 0
    ensures var s' := Save(s);
            DisplayPosts(s'.app, s'.planner.generatedPosts) ==
              PostsOf(s.app.posts, s.app.selectedCampaign.value.id) + s.planner.generatedPosts
  {
  }

  // ------------------------------------------------------------------- export

  /**
   * `handleExportCSV`: the CSV data URI of the displayed posts; nothing is
   * exported when no post is displayed.
   */
  function ExportCsv(s: Session): (r: Option<string>)
    ensures r.None? <==> DisplayPosts(s.app, s.planner.generatedPosts) == []
    ensures r.Some? ==> StartsWith(r.value, CsvPrefix)
  {
    CsvContent(DisplayPosts(s.app, s.planner.generatedPosts))
  }

  /**
   * When no displayed field holds a line break, the exported body reads back
   * as the header line followed by one line per displayed post, in order.
   */
  lemma ExportLines(s: Session)
    requires var ps := DisplayPosts(s.app, s.planner.generatedPosts);
             forall i :: 0 <= i < |ps| ==> SingleLine(ps[i])
    requires DisplayPosts(s.app, s.planner.generatedPosts) != []
    ensures ExportCsv(s).Some?
    ensures var ps := DisplayPosts(s.app, s.planner.generatedPosts);
            Split(ExportCsv(s).value[|CsvPrefix|..], '\n') == [Header] + CsvRows(ps)
  {
    CsvLines(DisplayPosts(s.app, s.planner.generatedPosts));
  }

  /** The export handler with every cell quoted and escaped. */
  function ExportCsvQuoted(s: Session): (r: Option<string>)
    ensures r.None? <==> ExportCsv(s).None?
    ensures r.Some? ==> StartsWith(r.value, CsvPrefix)
  {
    CsvContentQuoted(DisplayPosts(s.app, s.planner.generatedPosts))
  }

  /**
   * With the corrected quoting, every displayed post with no line break in
   * its values comes back from its line of the file as its seven values.
   */
  lemma ExportQuotedReadsBack(s: Session)
    requires var ps := DisplayPosts(s.app, s.planner.generatedPosts);
             forall i :: 0 <= i < |ps| ==> FieldsSingleLine(ps[i])
    requires DisplayPosts(s.app, s.planner.generatedPosts) != []
    ensures ExportCsvQuoted(s).Some?
    ensures var ps := DisplayPosts(s.app, s.planner.generatedPosts);
            var lines := Split(ExportCsvQuoted(s).value[|CsvPrefix|..], '\n');
            && |lines| == |ps| + 1 && lines[0] == Header
            && forall i :: 0 <= i < |ps| ==> ReadRow(lines[i + 1]) == Fields(ps[i])
  {
    CsvQuotedReadsBack(DisplayPosts(s.app, s.planner.generatedPosts));
  }

  // ----------------------------------------------------------------- hashtags

  /** A tag as displayed: `#` prefixed unless already there. */
  function DisplayTag(tag: string): (r: string)
    ensures StartsWith(r, "#")
    ensures r == tag <==> StartsWith(tag, "#")
    ensures !StartsWith(tag, "#") ==> r[1..] == tag
  {
    if StartsWith(tag, "#") then tag else "#" + tag
  }

  /** Displaying a displayed tag changes nothing. */
  lemma DisplayTagIdempotent(tag: string)
    ensures DisplayTag(DisplayTag(tag)) == DisplayTag(tag)
  {
  }
}

=== FILE: strings.dfy ===
/**
 * The handful of JavaScript string operations the planner relies on, written
 * out over `seq<char>`: `split` and `join` on a one-character separator,
 * `replace(/"/g, '""')`, `startsWith`, and the blank test `!s.trim()`.
 */
module Strings {

  /** `s.split(c)`: the pieces between occurrences of `c`; never empty. */
  function Split(s: string, c: char): (r: seq<string>)
    ensures |r| >= 1
    ensures forall i :: 0 <= i < |r| ==> c !in r[i]
    decreases |s|
  {
    if s == [] then [[]]
    else
      var rest := Split(s[1..], c);
      if s[0] == c then [[]] + rest
      else [[s[0]] + rest[0]] + rest[1..]
  }

  /** `ps.join(c)`. */
  function Join(ps: seq<string>, c: char): string
  {
    if ps == [] then []
    else if |ps| == 1 then ps[0]
    else ps[0] + [c] + Join(ps[1..], c)
  }

  /** Joining the pieces of a split gives back the original string. */
  lemma {:induction false} JoinSplit(s: string, c: char)
    ensures Join(Split(s, c), c) == s
    decreases |s|
  {
    if s != [] {
      var rest := Split(s[1..], c);
      JoinSplit(s[1..], c);
      if s[0] == c {
        assert Split(s, c) == [[]] + rest;
      } else {
        var r := Split(s, c);
        assert r == [[s[0]] + rest[0]] + rest[1..];
        if |rest| == 1 {
          assert Join(r, c) == [s[0]] + rest[0];
        } else {
          assert r[1..] == rest[1..];
          assert Join(r, c) == [s[0]] + rest[0] + [c] + Join(rest[1..], c);
          assert Join(rest, c) == rest[0] + [c] + Join(rest[1..], c);
        }
      }
    }
  }

  /** Splitting a join of separator-free pieces gives back the pieces. */
  lemma {:induction false} SplitJoin(ps: seq<string>, c: char)
    requires |ps| >= 1
    requires forall i :: 0 <= i < |ps| ==> c !in ps[i]
    ensures Split(Join(ps, c), c) == ps
    decreases |ps|
  {
    if |ps| == 1 {
      SplitNoSep(ps[0], c);
    } else {
      SplitJoin(ps[1..], c);
      SplitPrefix(ps[0], Join(ps[1..], c), c);
      assert ps == [ps[0]] + ps[1..];
    }
  }

  /** A string without the separator splits into itself alone. */
  lemma {:induction false} SplitNoSep(s: string, c: char)
    requires c !in s
    ensures Split(s, c) == [s]
    decreases |s|
  {
    if s != [] {
      SplitNoSep(s[1..], c);
      assert [s[0]] + s[1..] == s;
    }
  }

  /** A separator-free head followed by the separator becomes the first piece. */
  lemma {:induction false} SplitPrefix(a: string, b: string, c: char)
    requires c !in a
    ensures Split(a + [c] + b, c) == [a] + Split(b, c)
    decreases |a|
  {
    var s := a + [c] + b;
    if a == [] {
      assert s[1..] == b;
    } else {
      assert s[1..] == a[1..] + [c] + b;
      SplitPrefix(a[1..], b, c);
      assert [a[0]] + a[1..] == a;
    }
  }

  /** The first piece of a split is everything before the first separator. */
  lemma SplitFirst(a: string, t: string, c: char)
    requires c !in a
    requires t == [] || t[0] == c
    ensures Split(a + t, c)[0] == a
  {
    if t == [] {
      SplitNoSep(a, c);
      assert a + t == a;
    } else {
      assert a + t == a + [c] + t[1..];
      SplitPrefix(a, t[1..], c);
    }
  }

  /** The second piece of a split is the text between the first two separators. */
  lemma SplitSecond(a: string, b: string, t: string, c: char)
    requires c !in a && c !in b
    requires t == [] || t[0] == c
    ensures |Split(a + [c] + b + t, c)| >= 2
    ensures Split(a + [c] + b + t, c)[1] == b
  {
    assert a + [c] + b + t == a + [c] + (b + t);
    SplitPrefix(a, b + t, c);
    SplitFirst(b, t, c);
  }

  /** `s.replace(/"/g, '""')`: every double quote doubled. */
  function DoubleQuotes(s: string): (r: string)
    ensures '"' !in s ==> r == s
    ensures |r| >= |s|
  {
    if s == [] then []
    else if s[0] == '"' then "\"\"" + DoubleQuotes(s[1..])
    else [s[0]] + DoubleQuotes(s[1..])
  }

  /** `s.startsWith(p)`. */
  predicate StartsWith(s: string, p: string) {
    |p| <= |s| && s[..|p|] == p
  }

  /**
   * The characters `String.prototype.trim` removes: the ECMAScript
   * WhiteSpace and LineTerminator code points.
   */
  predicate IsTrimSpace(ch: char) {
    || ch == ' ' || ch == '\t' || ch == '\n' || ch == '\r'
    || ch == '\U{000B}' || ch == '\U{000C}' || ch == '\U{00A0}' || ch == '\U{FEFF}'
    || ch == '\U{1680}' || ('\U{2000}' <= ch <= '\U{200A}')
    || ch == '\U{2028}' || ch == '\U{2029}' || ch == '\U{202F}' || ch == '\U{205F}'
    || ch == '\U{3000}'
  }

  /** `!s.trim()`: the string is empty or all whitespace. */
  predicate IsBlank(s: string) {
    forall i :: 0 <= i < |s| ==> IsTrimSpace(s[i])
  }

  /** A piece holding the separator joins like the two pieces around it. */
  lemma {:induction false} JoinSplitPiece(xs: seq<string>, a: string, b: string, ys: seq<string>, c: char)
    ensures Join(xs + [a + [c] + b] + ys, c) == Join(xs + [a, b] + ys, c)
    decreases |xs|
  {
    if xs == [] {
      assert xs + [a + [c] + b] + ys == [a + [c] + b] + ys;
      assert xs + [a, b] + ys == [a, b] + ys;
      assert ([a, b] + ys)[1..] == [b] + ys;
      if ys != [] {
        assert ([a + [c] + b] + ys)[1..] == ys;
        assert ([b] + ys)[1..] == ys;
      }
    } else {
      JoinSplitPiece(xs[1..], a, b, ys, c);
      assert (xs + [a + [c] + b] + ys)[1..] == xs[1..] + [a + [c] + b] + ys;
      assert (xs + [a, b] + ys)[1..] == xs[1..] + [a, b] + ys;
    }
  }

  /** A character in none of the pieces and not the separator is not in the join. */
  lemma {:induction false} JoinExcludes(ps: seq<string>, c: char, d: char)
    requires d != c
    requires forall i :: 0 <= i < |ps| ==> d !in ps[i]
    ensures d !in Join(ps, c)
    decreases |ps|
  {
    if |ps| > 1 {
      JoinExcludes(ps[1..], c, d);
      assert Join(ps, c) == ps[0] + [c] + Join(ps[1..], c);
    }
  }

  /** Doubling quotes introduces no character other than `"`. */
  lemma {:induction false} DoubleQuotesExcludes(s: string, d: char)
    requires d != '"' && d !in s
    ensures d !in DoubleQuotes(s)
    decreases |s|
  {
    if s != [] {
      DoubleQuotesExcludes(s[1..], d);
    }
  }

  /** `trimStart()`: drops the leading whitespace. */
  function TrimStart(s: string): (r: string)
    ensures |r| <= |s| && r == s[|s| - |r|..]
    ensures r != [] ==> !IsTrimSpace(r[0])
    ensures IsBlank(s[..|s| - |r|])
    decreases |s|
  {
    if s != [] && IsTrimSpace(s[0]) then
      var r := TrimStart(s[1..]);
      assert s[..|s| - |r|] == [s[0]] + s[1..][..|s[1..]| - |r|];
      r
    else s
  }

  /** `trimEnd()`: drops the trailing whitespace. */
  function TrimEnd(s: string): (r: string)
    ensures |r| <= |s| && r == s[..|r|]
    ensures r != [] ==> !IsTrimSpace(r[|r| - 1])
    ensures IsBlank(s[|r|..])
    decreases |s|
  {
    if s != [] && IsTrimSpace(s[|s| - 1]) then
      var r := TrimEnd(s[..|s| - 1]);
      assert s[|r|..] == s[..|s| - 1][|r|..] + [s[|s| - 1]];
      r
    else s
  }

  /** `trim()`: drops whitespace at both ends. */
  function Trim(s: string): (r: string)
    ensures |r| <= |s|
  {
    TrimEnd(TrimStart(s))
  }

  /** The input guard `!input.trim()` rejects exactly the blank strings. */
  lemma BlankIffTrimEmpty(s: string)
    ensures IsBlank(s) <==> Trim(s) == []
  {
  }
}

=== FILE: types.dfy ===
/**
 * The records and enumerations shared by every part of the planner:
 * campaigns (brand profiles), posts (planned content items), chat messages,
 * the four views, and the shape of one item returned by the plan generator.
 * Also the Option/Result wrappers the rest of the model uses for optional
 * fields and for calls that can fail.
 */
module Types {

  /** An optional value: an absent TypeScript field or a `null`. */
  datatype Option<+T> = None | Some(value: T) {
    function GetOr(default: T): T {
      match this
      case Some(v) => v
      case None => default
    }
  }

  /** The outcome of a call that can raise: the value, or the error message. */
  datatype Result<+T> = Success(value: T) | Failure(error: string)

  /** JavaScript truthiness of an optional string: present and not empty. */
  predicate Truthy(o: Option<string>) {
    o.Some? && o.value != ""
  }

  datatype SocialPlatform = Instagram | LinkedIn | Twitter | Facebook

  datatype VisualType = Image | Video

  datatype PostStatus = Draft | Scheduled | Published

  datatype Role = User | Model

  datatype ViewState = Dashboard | NewCampaign | EditCampaign | Planner

  /** A brand profile. Its posts are kept apart, keyed by `id` (see AppContext). */
  datatype Campaign = Campaign(
    id: string,
    companyName: string,
    niche: string,
    services: string,
    targetAudience: string,
    brandVoice: string,
    logo: Option<string>,   // a data URI; the form may store the empty string
    createdAt: int)

  datatype Post = Post(
    id: string,
    day: string,
    platform: SocialPlatform,
    caption: string,
    hashtags: seq<string>,
    visualDescription: string,
    visualType: VisualType,
    visualUrl: Option<string>,
    videoScript: Option<string>,
    status: PostStatus)

  datatype ChatMessage = ChatMessage(id: string, role: Role, text: string, timestamp: int)

  /**
   * One item of a generated plan: a post without `id`, `platform`, `status`
   * and `visualUrl`. The generator may omit `visualType`, hence the option.
   */
  datatype GeneratedPostData = GeneratedPostData(
    day: string,
    caption: string,
    hashtags: seq<string>,
    visualDescription: string,
    visualType: Option<VisualType>,
    videoScript: Option<string>)

  /** The lower-case names the source uses for the enumerations (CSV cells, prompts). */
  function PlatformName(p: SocialPlatform): (r: string)
    ensures r != []
  {
    match p
    case Instagram => "instagram"
    case LinkedIn => "linkedin"
    case Twitter => "twitter"
    case Facebook => "facebook"
  }

  function StatusName(s: PostStatus): (r: string)
    ensures r != []
  {
    match s
    case Draft => "draft"
    case Scheduled => "scheduled"
    case Published => "published"
  }

  /** Distinct platforms have distinct names, so a name identifies its platform. */
  lemma PlatformNameInjective(a: SocialPlatform, b: SocialPlatform)
    ensures PlatformName(a) == PlatformName(b) <==> a == b
  {
  }

  /** Distinct statuses have distinct names. */
  lemma StatusNameInjective(a: PostStatus, b: PostStatus)
    ensures StatusName(a) == StatusName(b) <==> a == b
  {
  }
}
